=== FILE: README.md ===
# Presence reconciliation for a real-time chat service, in Dafny

This project models how a Socket.IO chat server and its web client decide who
is online. All code is pure functions over immutable values.

- **Server state.** One `Presence.Server` record holds:
  - the `activeUsers` binding of user names to socket ids;
  - the `userSessions` activity table;
  - the per-user message rate-limit windows;
  - the per-address connection times;
  - each socket's mark-read debounce table;
  - the coalescing `userUpdate` dispatcher;
  - the user store, reduced to `online`, `lastSeen`, `socketId`, location and chat window.
- **Handlers.** Each socket handler is a function from a state and its inputs to a `Step`: the next state plus the list of emitted events, each addressed to everyone, the caller, or one socket.
- **Inputs stand in for the outside world.**
  - The current time is a `now` argument in milliseconds.
  - The transport's live connections (`io.fetchSockets()`) are a list argument.
  - Timers are separate events: the 10 s grace check and the 500 ms dispatcher flush.
  - The heartbeat's random one-in-five database write is a boolean argument.
- **Map order.** JavaScript `Map` iteration order matters in two places, so the binding, session and store tables are insertion-ordered association lists (module `Assoc`):
  - a disconnect picks the *last* name bound to the closing socket;
  - sweeps emit in table order.
- **Client side.** The client merge, message append, read marking, unread counts, `formatLastSeen` and the user filter are list functions over the roster.
- **Login form.** Registration validation on the login page is modelled together with the server's own registration checks, and a lemma shows the two agree.

Modules and files:

- `base.dfy`, `assoc.dfy` and `text.dfy` hold the common parts:
  - option type and aliases;
  - ordered maps;
  - ECMAScript `trim`, ASCII lower-casing, digit strings, `Number()`.
- `ratelimit.dfy`: `isRateLimited`, its sweep, and the time gate used by the connection throttle and the mark-read debounce.
- `throttle.dfy`: the coalescing `userUpdate` dispatcher.
- `presence.dfy`: server state, events and store updates.
- `binding.dfy`: connection handshake, `connected`, `AlreadyGuest`, `user-online`, `ping-user`, `heartbeat`.
- `disconnect.dfy`: the `disconnect` state machine, its grace check, `user-offline`, `POST /api/user-offline`, and session expiry.
- `verify.dfy`: `check-user-online`, `verify-online-users`, `refresh-user-status`, and the one-minute stale sweep.
- `messaging.dfy`: `send-message` and `mark-messages-read`.
- `scenarios.dfy`: multi-event disconnect stories.
- `registration.dfy`, `login.dfy`: the registration payload and the login form.
- `roster.dfy`, `lastseen.dfy`, `userfilter.dfy`, `stablesort.dfy`: the chat page.

Behaviours of the code worth knowing:

- **Stale binding in `check-user-online`.** Not every state change broadcasts. When a stale binding is found, the record is set offline without a broadcast (server.js:1254-1258). The final `if (user.online)` then sees the record it just changed, so that path never announces `user-offline` (`Verify.StaleBindingIsSilent`).
- **`verify-online-users` ignores the `online` flag.** It forces offline any unbound user whose `lastSeen` is stale, and re-announces users who are already offline (`Verify.VerifyReannouncesOfflineUsers`).
- **The grace check also tests recent activity.** It does nothing when the session table shows activity within the last minute (server.js:920-927). A dropped connection from a recently active user therefore stays online after the grace period (`Scenarios.RecentlyActiveDropStaysOnline`).
- **`check-user-online` during the grace period already answers offline.** The closed socket is no longer live, so the binding counts as stale (`Scenarios.CheckDuringGraceReportsOffline`).

## Model

| member | source | states |
|---|---|---|
| Assoc.Put | server.js:679 | `Map.set`: the key maps to the new value, other keys are unchanged, keys stay unique, a new key is appended and an existing key keeps its position |
| Assoc.Remove | server.js:350-351 | `Map.delete`: the key is gone, other keys are unchanged, keys stay unique |
| Assoc.LastKeyWith | server.js:898-903 | the `forEach` search finds the last key bound to a value, and none exactly when no key is |
| Assoc.MapValues | server.js:1390-1413 | rewriting every record in place keeps the keys and their order, and each key maps to the rewritten value |
| Text.Trim | app/login/page.js:207 | `trim()` returns a slice `s[i..j]` of its input with only white space before `i` and after `j`, with no white space at either end of the result, and empty exactly for blank strings |
| Text.DigitsRoundTrip | app/login/page.js:32 | reading back the decimal rendering of an age gives the age |
| RateLimit.Recent | server.js:253-255 | the pruned window keeps exactly the times less than 10 s old, each as many times as it was stored, so repeated times all count toward the limit |
| RateLimit.RecentSnoc | server.js:253-255 | pruning keeps the stored order: a time appended to the window ends the pruned window exactly when it is recent |
| RateLimit.IsRateLimited | server.js:244-270 | rejects exactly when 10 or more recent times remain; a rejection appends nothing and stores the pruned window only for an existing entry; an admission stores the pruned window plus `now`; the warning is logged only after 10 s of silence; other users are untouched |
| RateLimit.LimiterKeepsBound | server.js:258-269 | no stored window grows beyond 10 times |
| RateLimit.WarnsOncePerWindow | server.js:260-263 | after a warning, none is logged again within 10 s |
| RateLimit.RejectionIsStable | server.js:258-265 | a rejection changes nothing that would let the same attempt through at the same instant |
| RateLimit.RecentIdempotent | server.js:253-255 | pruning twice is pruning once |
| RateLimit.RecentKeepsRecent | server.js:253-255 | a window of recent times is kept whole |
| RateLimit.EleventhRejectedUntilWindowSlides | server.js:244-270 | ten messages in one window make the eleventh a rejection that stores nothing new; once the window slides past the first, the next is admitted |
| RateLimit.SweepLimits | server.js:1810-1815 | a user's window is deleted exactly when every stored time is more than 10 s old (so an empty window always goes), and other windows are kept as they are |
| RateLimit.SweepKeepsDecisions | server.js:1810-1815 | the sweep never changes a later admission decision |
| RateLimit.AdmittedWindowSurvivesSweep | server.js:1810-1815 | a window just written by an admission is not swept at that instant |
| RateLimit.Gate | server.js:377-389 | an event passes exactly when at least `gap` ms have passed since the key's last pass, with a missing key read as 0; passing records `now` and nothing else changes |
| RateLimit.GateHoldsForGap | server.js:798-807 | after a pass, the same key is held back until `gap` ms have elapsed and let through from then on |
| RateLimit.SweepConnectTimes | server.js:1803-1807 | an address is forgotten exactly when its last connection is more than 30 minutes old |
| RateLimit.SweepConnectTimesKeepsThrottle | server.js:1803-1807 | forgetting old addresses never changes the 1 s connection throttle's verdict |
| Throttle.Schedule | server.js:295-297 | scheduling adds the name to the pending set and leaves a timer armed |
| Throttle.Fire | server.js:299-306 | the timer broadcasts `userUpdate` exactly when names are pending, then clears the set and the timer |
| Throttle.Names | server.js:296 | the pending set of a burst holds exactly its names |
| Throttle.BurstCoalesces | server.js:290-310 | any burst of scheduling starts at most one timer (none if one was armed), and its expiry emits exactly one `userUpdate` and leaves the dispatcher idle |
| Presence.ApplyIsIdempotent | server.js:656-676 | writing a store update twice is writing it once, and an update that names no field changes nothing |
| Presence.UpdateUser | server.js:659-665 | `findOneAndUpdate` without upsert: a missing user stays missing, other users are untouched, table uniqueness is kept |
| Presence.Bind | server.js:679 | `activeUsers.set`: the name is bound to the socket and other names keep their binding |
| Presence.Unbind | server.js:1255 | `activeUsers.delete`: the name is unbound and other names keep their binding |
| Presence.ScheduleUpdate | server.js:495 | the pending names become exactly the old ones plus this name, a timer is armed, and nothing else in the state changes |
| Presence.OnUpdateTimer | server.js:299-306 | the dispatcher's flush emits one `userUpdate` exactly when names are pending, then goes idle |
| Presence.OfflineBroadcastsAppend | server.js:343-346 | the offline broadcasts of consecutive steps concatenate |
| Binding.OnConnection | server.js:372-418 | connections from one address less than 1 s apart get the wait error and are closed, changing nothing. Otherwise the time is recorded; a non-empty stored name contained in the handshake token is bound to the socket with its `lastSeen` refreshed, and in every other case nothing but the time changes. Other users' bindings and records are untouched, and only the connection times, bindings and store can change |
| Binding.OrUnknown | server.js:480-481 | a missing location becomes `Unknown` and a given one is kept |
| Binding.Connected | server.js:420-502 | an invalid registration gets the validation message and changes nothing. A valid one ends with the user stored online on this socket and bound, `UserExist` for an existing user (chat window kept) or `userAdded` for a new one (empty window, defaulted location), `user-online` broadcast and the name added to the pending updates, other pending names kept. Other users' records and bindings are untouched and the session table, rate-limit windows, connection times and read-receipt debounce are unchanged |
| Binding.AlreadyGuest | server.js:504-550 | no payload, no name or an unknown name is refused with nothing changed; a stored guest goes online on this socket, is bound and accepted, and `user-online` and `userUpdate` are broadcast, in that order. Other users' records and bindings are untouched, no update is scheduled, and the session table, rate-limit windows, connection times and read-receipt debounce are unchanged |
| Binding.ArgLocation | server.js:554-556 | a bare name gives `Unknown` for both fields; the object form gives each field it supplies and `Unknown` for each it leaves empty |
| Binding.SeenAtWritesOnlyKnownLocation | server.js:572-583 | the `user-online` update sets `lastSeen`, writes each location field only when it is not `Unknown`, and keeps `online`, `socketId` and the chat window; a bare name writes no location |
| Binding.UserOnlineEvent | server.js:552-599 | for a stored user: binds the name to this socket (last bind wins), writes `lastSeen` and known location, keeps `online` as it was, and broadcasts `user-online` with the location; an unknown user gets `user-not-found` and nothing changes. Other users, the pending updates and the side tables are untouched |
| Binding.PingUser | server.js:601-637 | like `user-online` for the store, but binds only a currently unbound name and broadcasts nothing; an unknown user gets `user-not-found` and nothing changes. Other users, the pending updates and the side tables are untouched |
| Binding.Heartbeat | server.js:1018-1043 | records the client's activity time (or `now`), binds the name to this socket (last bind wins), sets a stored user online on this socket only on the sampled write, and emits nothing. Other users' session entries, records and bindings, the pending updates and the other side tables are untouched |
| Disconnect.GoneOffline | server.js:933-950 | the user is stored offline at `now`, unbound, announced offline exactly once, and added to the pending updates with the other pending names kept. Other users' records and bindings are untouched and the session table, rate-limit windows, connection times and read-receipt debounce are unchanged |
| Disconnect.OnDisconnect | server.js:892-982 | the user is the last name bound to the closing socket; none, or the empty name, means no change. `transport close`/`ping timeout` only schedule a grace check 10 s later. The namespace disconnects take the user offline at once with one broadcast, adding the name to the pending updates and changing nothing else. Any other reason changes nothing |
| Disconnect.DisconnectFindsBoundUser | server.js:898-903 | a socket that some name is bound to always identifies a user bound to it |
| Disconnect.GraceExpiry | server.js:911-953 | the grace check is a no-op when the name is now bound elsewhere or unbound, when the user was active within the last minute, or when the user is not stored; otherwise the user goes offline with exactly one broadcast and one scheduled update |
| Disconnect.UserOfflineEvent | server.js:985-1015 | the user is stored offline at `now`, unbound, announced offline with the client's timestamp when given (even if not stored), and added to the pending updates; other users, other pending names and the side tables are untouched |
| Disconnect.ApiUserOffline | server.js:1849-1881 | a request without a name changes nothing. Otherwise the user is stored offline with the client's timestamp (or `now`), unbound, and announced offline, with no update scheduled; other users and the side tables are untouched |
| Disconnect.InactiveUsers | server.js:323-327 | the expired names are exactly those whose last activity is more than 30 minutes old |
| Disconnect.InactiveUsersSnoc | server.js:323-327 | the expired names come in session-table order, one per idle entry: an appended entry adds its name at the end exactly when idle |
| Disconnect.ExpireAll | server.js:330-364 | each expired user is stored offline, unbound, dropped from the session table and announced once, in order; everyone else's record, binding and session entry is untouched, as are the pending updates, rate-limit windows, connection times and read-receipt debounce |
| Disconnect.CleanupInactiveSessions | server.js:319-366 | the users announced offline are exactly the expired ones |
| Disconnect.CleanupLeavesNoIdleSession | server.js:319-366 | afterwards no session older than 30 minutes remains, expired users are unbound, and other users are untouched |
| Verify.FindByName | server.js:1262-1266 | `find` returns the first live socket whose handshake carries the name, or none exists |
| Verify.CheckUserOnline | server.js:1190-1326 | a missing name or unknown user gets `online: false` with an error and nothing changes. A live bound socket gets `online: true`, writing and broadcasting only when the record said offline. When the record said offline it is set online with `lastSeen` now and the binding kept. Otherwise the first live socket named in its handshake is bound, stored online with its id, confirmed and announced online; with none, a stale binding is dropped and the record set offline with an `online: false` reply and no broadcast, while an unbound user gets the stored `lastSeen` and a `user-offline` broadcast only when the record said online. Other users are untouched, and on every path only the bindings and the store can change |
| Verify.StaleBindingIsSilent | server.js:1254-1315 | after a stale binding is dropped with no other connection found, the user is offline and unbound, and no `user-offline` is broadcast |
| Verify.CheckTwiceIsQuiet | server.js:1193-1315 | an immediate repeat check against the same live sockets changes nothing and broadcasts nothing |
| Verify.ForceOffline | server.js:1352-1355 | a stale user is set offline, and `lastSeen` is kept when present and set to `now` otherwise |
| Verify.VerifyEach | server.js:1340-1378 | only unbound, stored users whose `lastSeen` is missing or over 2 minutes old are forced offline and announced; every other user, including names not in the store, keeps its record exactly; only the store changes |
| Verify.VerifyEachSnoc | server.js:1340-1377 | replies come in request order: one more name appends exactly its `user-offline` reply to the requester followed by the broadcast to everyone when it is forced offline, nothing otherwise, judged on the original record when the name was not asked before |
| Verify.VerifyOnlineUsers | server.js:1329-1382 | without a requester nothing happens; with one, the listed names are verified in turn as `VerifyEach` states; bound users are never touched |
| Verify.VerifyReannouncesOfflineUsers | server.js:1352-1360 | a user already stored offline is announced offline again |
| Verify.SweepEmits | server.js:1393-1415 | the sweep announces exactly the online, stale, unbound users |
| Verify.SweepEmitsSnoc | server.js:1393-1415 | the sweep's broadcasts come in store order, one per targeted entry: an appended entry adds its broadcast at the end exactly when targeted |
| Verify.StaleSweep | server.js:1385-1420 | exactly the stored users flagged online, with a stale `lastSeen` and no binding, are forced offline (keeping `lastSeen` or using `now`); everyone else is unchanged |
| Verify.SweepAnnouncesExactlyItsTargets | server.js:1393-1415 | a user is announced offline by the sweep exactly when the sweep targets them, and bound users are never touched |
| Verify.RefreshUserStatus | server.js:1423-1504 | a bound, stored user goes online on the bound socket and is announced. An unbound user seen in the last 2 minutes whose stored socket is live is rebound to it and announced online. Otherwise `user-offline` with the stored `lastSeen` is broadcast and nothing changes. Only the bindings and the store can change |
| Verify.RefreshAnnouncesOnlineIffBound | server.js:1432-1500 | a refresh announces `user-online` exactly when the user ends up bound |
| Messaging.Copy | server.js:689-703 | both stored copies carry the payload's sender, recipient, text, timestamp, image and id, and differ only in the read flag |
| Messaging.Deliver | server.js:708-726 | `$push` appends the message to a stored user's window and refreshes `lastSeen`; a missing user stays missing |
| Messaging.StoreMessage | server.js:656-726 | the sender ends bound to the socket; nobody else's binding, and no third user's record, changes; only the bindings and the store change |
| Messaging.Admit | server.js:656-779 | an admitted message binds the sender to the socket; the emits are exactly, in order, `user-online` for the sender, `user-online` for the recipient when bound, the confirmation with the read copy, and the unread copy to the recipient's bound socket when there is one; only the bindings and the store change |
| Messaging.SendMessage | server.js:639-779 | a sender over the limit gets a failed `message-sent` and only the limiter changes. Otherwise the sender is bound to this socket, and the emits are exactly, in order, `user-online` for the sender, `user-online` for the recipient when bound, the confirmation with the read copy, and the unread copy to the recipient's bound socket when there is one; only the limiter, the bindings and the store change |
| Messaging.SendMessageStoresBothCopies | server.js:656-726 | between two stored users, the recipient's window ends with the unread copy and the sender's with the read copy. Both `lastSeen`s become `now`, the sender is online on the socket, and the recipient is online exactly when they were or are bound |
| Messaging.MarkReadFrom | server.js:828-842 | every message from the sender is marked read and nothing else changes |
| Messaging.MarkReadFromIsIdempotent | server.js:828-842 | marking twice is marking once, no message from the sender stays unread, and ids are unchanged |
| Messaging.MarkMessagesRead | server.js:796-842 | at most once per 2 s per socket and key; when let through, `to` goes online on this socket, is bound and announced, and every message from `from` in `to`'s window is read; only the debounce table, the bindings and the store change |
| Messaging.DebounceKeysCollide | server.js:799 | the key `${from}-${to}` lets two different conversations share one debounce entry, so one read receipt holds back the other |
| Scenarios.ReconnectWithinGraceStaysOnline | server.js:892-953 | a transport drop followed by a heartbeat on a new socket leaves the grace check with nothing to do: no `user-offline` is broadcast |
| Scenarios.SilentDropGoesOfflineOnce | server.js:892-953 | a drop with no activity in the last minute ends with exactly one `user-offline`; the same check again does nothing |
| Scenarios.RecentlyActiveDropStaysOnline | server.js:911-927 | a drop within a minute of recorded activity leaves the user online after the grace check |
| Scenarios.CheckDuringGraceReportsOffline | server.js:1223-1297 | during the grace period, `check-user-online` answers offline and drops the binding |
| Registration.CheckRegistration | server.js:420-444 | a registration is admitted exactly when it has a name and gender, a numeric age of at least 18, and a `[A-Za-z0-9_]+` name; each failure gets its own message, in the handler's order |
| Login.ValidateUserName | app/login/page.js:206-218 | no error exactly for a blank name, or for a name of 5 to 15 characters drawn from `[A-Za-z0-9_]`; under 5 or over 15 untrimmed characters gives the length errors, and a name of 5 to 15 characters with any other character gives the bad-characters error |
| Login.AgeOptions | app/login/page.js:32 | 83 options, the i-th being 18 + i |
| Login.AgeOptionsAreAdultAges | app/login/page.js:32 | the options are exactly the ages 18 to 100 |
| Login.OrUnknown | app/login/page.js:268-269 | a blank location becomes `Unknown` and any other is trimmed |
| Login.HandleSubmit | app/login/page.js:235-306 | submits exactly when the name rule, non-blank name, age, gender and terms all pass, and reports the first failure in that order. The payload has the trimmed name, numeric age, defaulted location and `online: true` |
| Login.TrimWordString | app/login/page.js:214-217 | a name the pattern accepts is unchanged by trimming |
| Login.SubmittedFormIsAdmitted | app/login/page.js:235-306 | a form with a name of 5 to 15 word characters, a gender, the terms accepted and one of the offered ages is submitted, and its payload passes the server's registration checks |
| Roster.Previous | app/chat/page.js:249-256 | the entry used for a name is the last one listed under it, or none exists |
| Roster.NewMessages | app/chat/page.js:300-301 | exactly the fetched messages whose id is not already present are kept (order and repeats through `Roster.NewMessagesSnoc`) |
| Roster.NewMessagesSnoc | app/chat/page.js:300-301 | the kept messages follow the fetched order: a fetched message appended last is kept last exactly when its id is new, and nothing is kept from nothing |
| Roster.UnionById | app/chat/page.js:290-306 | the existing messages come first in order, then the fetched messages with new ids, and every fetched id ends up present |
| Roster.NewMessagesKeepIdsUnique | app/chat/page.js:300-301 | new messages with unique ids never repeat an existing id |
| Roster.UnionKeepsIdsUnique | app/chat/page.js:300-305 | merging two unique-id windows keeps ids unique |
| Roster.MergeOne | app/chat/page.js:252-306 | per fetched user: a user absent locally passes through. Both offline keeps the later `lastSeen`. Online locally but offline in the fetch stays online with the local `lastSeen` and triggers exactly one check. Otherwise a non-empty local window is merged by id, and with an empty local window the fetched user is shown as fetched |
| Roster.MergeRoster | app/chat/page.js:247-310 | the result has exactly the fetched users in fetched order, and the checks are exactly for the users demoted by the fetch |
| Roster.MergeRosterSnoc | app/chat/page.js:247-310 | a user appended to the fetch adds its entry at the end and, when demoted, exactly one check at the end |
| Roster.MergeKeepsLocallyOnline | app/chat/page.js:276-287 | a locally online user reported offline stays online with the local `lastSeen` and is sent for verification; an unknown user passes through |
| Roster.UnionIsIdempotent | app/chat/page.js:290-306 | merging the same fetched window again adds nothing |
| Roster.NoNewMessages | app/chat/page.js:300-301 | when every fetched id is present, nothing is appended |
| Roster.OfflineMergeTakesFetchedWindow | app/chat/page.js:261-272 | when both copies are offline and the local one was seen later, the merge returns the fetched window with the local `lastSeen`, skipping the chat merge |
| Roster.FindPeer | app/chat/page.js:470 | `findIndex` returns the first entry with the name, or none exists |
| Roster.ReceiveMessage | app/chat/page.js:456-504 | a message not addressed to me is ignored; otherwise it is appended to the sender's first entry exactly when its id is new; no other entry changes |
| Roster.ReceiveKeepsIdsUnique | app/chat/page.js:484-488 | every window keeps unique ids, and a second delivery of the same message changes nothing |
| Roster.FindPeerSameNames | app/chat/page.js:470 | the lookup depends only on the names |
| Roster.UnreadMessages | app/chat/page.js:1270 | exactly the messages not from me and not read |
| Roster.UnreadCount | app/chat/page.js:1268-1271 | the count is zero exactly when no message is unread |
| Roster.GetUnreadInfo | app/chat/page.js:1274-1282 | the count matches the unread count, and the latest message is missing exactly when the count is zero |
| Roster.LastUnread | app/chat/page.js:1279 | the last unread message in list order, or none when nothing is unread |
| Roster.LatestIsLastUnread | app/chat/page.js:1274-1282 | the reported latest unread message is the last unread one in the window |
| Roster.UnreadMessagesSnoc | app/chat/page.js:1277-1279 | filtering from the front and searching from the back agree on the last unread message |
| Roster.UnreadMessagesAppend | app/chat/page.js:1277 | filtering a window with one more message adds at most that message at the end |
| Roster.MarkReadLocally | app/chat/page.js:583-615 | in the sender's first entry, messages from them to me become read; nothing else changes |
| Roster.ReadWhereMarksSelected | app/chat/page.js:592-598 | every selected message ends read, ids, senders and recipients are kept, unselected messages are unchanged, and marking again changes nothing |
| Roster.MarkReadOnSelect | app/chat/page.js:627-645 | selecting a peer sets `read` on exactly the messages in their window not sent by me, keeps every other message and field, leaves no unread messages, and changes no other entry |
| Roster.ReceiveThenMarkRead | app/chat/page.js:456-615 | a new incoming message raises that peer's unread count by one, and the local mark-read leaves nothing from them to me unread |
| Roster.Conversation | app/chat/page.js:1285-1293 | exactly the messages between me and the selected user (order through `Roster.ConversationSnoc`) |
| Roster.Keep | app/chat/page.js:1288 | `filter` keeps exactly the matching messages (order and repeats through `Roster.KeepSnoc`) |
| Roster.KeepSnoc | app/chat/page.js:1288 | `filter` keeps the window's order: a message appended last is kept last exactly when it matches, and nothing is kept from nothing |
| Roster.ConversationSnoc | app/chat/page.js:1285-1293 | a message arriving last in the window shows last in the conversation exactly when it is between me and the selected user |
| LastSeen.FormatLastSeen | app/chat/page.js:1228-1265 | missing or zero gives `Unknown`. Under 30 s gives `Online`, under 60 s `Just now`. Then whole minutes under an hour, hours under a day, and days under a week, each floored from the millisecond difference. A date otherwise |
| LastSeen.FloorSteps | app/chat/page.js:1244-1251 | flooring to seconds and then minutes, hours and days equals flooring once by the whole unit |
| LastSeen.Render | app/chat/page.js:1254-1257 | `Unknown`, `Online` and `Just now` are shown as such; a count label starts with the count's digits and ends with the unit name and ` ago`, with an `s` on the unit exactly when the count is not one |
| LastSeen.RenderPlurals | app/chat/page.js:1255-1257 | for every unit and count: the count, the unit name, an `s` unless the count is one, and ` ago` |
| LastSeen.LabelsAgeMonotonically | app/chat/page.js:1243-1247 | once a user is shown as not online, later times never show them online without a newer timestamp |
| UserFilter.Where | app/chat/page.js:699-710 | `filter` keeps exactly the matching users (order and repeats through `UserFilter.WhereSnoc`) |
| UserFilter.WhereSnoc | app/chat/page.js:699-710 | `filter` keeps the list's order: a user appended last is kept last exactly when they match, and nothing is kept from nothing |
| UserFilter.Rank | app/chat/page.js:715-735 | the comparator's three tie-breaks encoded as one rank below 8 |
| UserFilter.CompareIsRankOrder | app/chat/page.js:714-737 | the comparator puts `a` first exactly when its rank is lower, and calls them equal exactly when the ranks are equal |
| UserFilter.FilteredUsers | app/chat/page.js:696-740 | the gender and region filters match case-insensitively and skip `all`. With no region filter and a known own region, the result is a permutation of the gender-filtered users, sorted by rank (input order otherwise, through `UserFilter.FilteredUsersSnoc`) |
| UserFilter.FilteredUsersSnoc | app/chat/page.js:696-713 | without the sort, the filtered list keeps the input order: a user appended last is kept last exactly when both filters pass |
| UserFilter.NeighboursFirst | app/chat/page.js:714-730 | in the sorted list nobody from another region precedes someone from the own region, and likewise for the own known country within a region group |
| UserFilter.FilteredUsersKeepsTies | app/chat/page.js:714 | users the comparator calls equal keep their relative order |
| UserFilter.GenderFilterIgnoresCase | app/chat/page.js:699-702 | two gender filter values that differ only in letter case select the same users in the same order |
| StableSort.Insert | app/chat/page.js:714 | insertion keeps the list sorted and adds exactly the one element |
| StableSort.SortBy | app/chat/page.js:714 | the sort's result is sorted and a permutation of its input |
| StableSort.WithKeyCons | app/chat/page.js:714 | the equal-key elements of a list with a head are the head (if its key matches) followed by those of the tail |
| StableSort.InsertKeepsKeyOrder | app/chat/page.js:714 | inserting an element puts it before its equal-key peers and keeps their order |
| StableSort.SortIsStable | app/chat/page.js:714 | elements with equal keys keep their relative order |

## Left out

- Socket.IO and Express plumbing. Rooms, CORS, health and test endpoints, `performanceStats`, and the `error` and `connectionError` payload shapes beyond their messages are reduced to the `Emit` list.
- Database I/O. The store is an ordered map of records; each store call is applied atomically, in the handler's order.
  - Mongoose strict mode would drop `online` writes, because the schema declares no such field. The model keeps `online` as the handlers intend.
  - The one-hour TTL on `lastSeen` is not modelled.
- Concurrency between awaits. Each handler runs to completion as one step. The fire-and-forget binding in the connection handshake is applied within the connection step.
- Listener wiring. `disconnect` and `user-offline` are registered twice, `cleanupListeners` removes some handlers, and the stale sweep's `setInterval` is created once per connection. Each handler is modelled once; nothing is claimed about which copies are reachable.
- The `session-expired` notice in session expiry is unreachable, because the binding is deleted before it is read. Only the offline and removal effects are modelled.
- Randomness and timers. The heartbeat's one-in-five store write is the `dbWrite` argument, and timers are explicit events. The delayed `self-update` and `conversation-update` snapshots sent after messages and read receipts are not modelled.
- Event payload details: ISO timestamp strings, the `direction` field and `messageId` duplicates are omitted. A `lastSeen` is a millisecond count, `None` when absent.
- Profile fields (Age, Gender) are not kept in the server's record, because the presence logic never reads them.
- Messaging.SendMessage: when a user messages themself, both copies are pushed to the same window, recipient copy first; the source runs the two pushes in parallel, so their order there is unspecified.
- Media uploads, the image sweep and video-call signalling are forwarding and I/O only.
- `user-reconnect`, `check-user-exists`, `user-not-available` and the `/recreate-user` endpoint are outside the presence core.
- Client side:
  - The client's pre-merge initialisation in `getOnlineData` (page.js:229-242) reads a render-time snapshot of the list. The model takes the fetched entries as already initialised and models the `setOnline` merge.
  - `getFilteredUsers` sorts the unfiltered list in place, which also reorders the on-screen state; only the returned list is modelled.
  - The 15 s fetch throttle and the follow-up verification emits after the merge are not modelled.
- LastSeen.Render: the date label for week-old timestamps is a placeholder, because `toLocaleDateString` depends on the locale.
- Strings:
  - `toLowerCase` is modelled for ASCII letters only.
  - Lengths count `char`s, not UTF-16 code units.
  - `Number()` is modelled for plain decimal digit strings, with every other string read as `NaN`. For the login form's age field this is exact, since the field only offers the listed ages.

=== FILE: assoc.dfy ===
/** Insertion-ordered maps, the way a JavaScript `Map` (and a MongoDB
    collection scanned in natural order) behaves: `Put` of a new key appends
    it at the end, `Put` of an existing key replaces the value in place, and
    iteration visits keys in that order. */
module Assoc {
  import opened Base

  /** `Map.prototype.get`: the value stored under the first occurrence of `k`. */
  function Get<K(==), V>(a: seq<(K, V)>, k: K): Option<V>
  {
    if |a| == 0 then None
    else if a[0].0 == k then Some(a[0].1)
    else Get(a[1..], k)
  }

  /** `Map.prototype.has`. */
  predicate Has<K(==), V>(a: seq<(K, V)>, k: K) {
    Get(a, k).Some?
  }

  /** No key occurs twice. */
  predicate Unique<K(==), V>(a: seq<(K, V)>) {
    |a| == 0 || (!Has(a[1..], a[0].0) && Unique(a[1..]))
  }

  /** The keys of `a`, in iteration order. */
  function Keys<K, V>(a: seq<(K, V)>): (ks: seq<K>)
    ensures |ks| == |a|
    ensures forall i :: 0 <= i < |a| ==> ks[i] == a[i].0
  {
    seq(|a|, i requires 0 <= i < |a| => a[i].0)
  }

  /** `Map.prototype.set`: replaces the value of an existing key where it
      stands, or appends a new key at the end. */
  function Put<K(==,!new), V>(a: seq<(K, V)>, k: K, v: V): (r: seq<(K, V)>)
    ensures Get(r, k) == Some(v)
    ensures forall k' :: k' != k ==> Get(r, k') == Get(a, k')
    ensures Unique(a) ==> Unique(r)
    ensures !Has(a, k) ==> r == a + [(k, v)]
    ensures Has(a, k) ==> Keys(r) == Keys(a)
  {
    if |a| == 0 then [(k, v)]
    else if a[0].0 == k then
      var r := [(k, v)] + a[1..];
      assert r[1..] == a[1..];
      r
    else
      var t := Put(a[1..], k, v);
      var r := [a[0]] + t;
      assert r[1..] == t;
      assert a == [a[0]] + a[1..];
      r
  }

  /** `Map.prototype.delete`: drops key `k`, keeping the order of the rest. */
  function Remove<K(==,!new), V>(a: seq<(K, V)>, k: K): (r: seq<(K, V)>)
    ensures Get(r, k) == None
    ensures forall k' :: k' != k ==> Get(r, k') == Get(a, k')
    ensures Unique(a) ==> Unique(r)
    ensures !Has(a, k) ==> r == a
  {
    if |a| == 0 then []
    else
      var t := Remove(a[1..], k);
      if a[0].0 == k then t
      else
        var r := [a[0]] + t;
        assert r[1..] == t;
        assert a == [a[0]] + a[1..];
        r
  }

  /** The last key (in iteration order) whose value is `v`: what a
      `forEach` that overwrites a variable on every match leaves behind. */
  function LastKeyWith<K, V(==)>(a: seq<(K, V)>, v: V): (r: Option<K>)
    ensures r.None? <==> forall i :: 0 <= i < |a| ==> a[i].1 != v
    ensures r.Some? ==> exists i :: 0 <= i < |a| && a[i] == (r.value, v) &&
                          forall j :: i < j < |a| ==> a[j].1 != v
  {
    if |a| == 0 then None
    else if a[|a| - 1].1 == v then Some(a[|a| - 1].0)
    else LastKeyWith(a[..|a| - 1], v)
  }

  /** In a table without repeated keys, the value `Get` finds under a key is
      the one stored at that key's position. */
  lemma {:induction false} GetAt<K, V>(a: seq<(K, V)>, i: int)
    requires Unique(a)
    requires 0 <= i < |a|
    ensures Get(a, a[i].0) == Some(a[i].1)
  {
    if i > 0 {
      GetAt(a[1..], i - 1);
      assert a[1..][i - 1] == a[i];
    }
  }

  /** A key `Get` finds is stored at some position with that value. */
  lemma {:induction false} GetIndex<K, V>(a: seq<(K, V)>, k: K)
    requires Get(a, k).Some?
    ensures exists i :: 0 <= i < |a| && a[i] == (k, Get(a, k).value)
  {
    if a[0].0 != k {
      GetIndex(a[1..], k);
      var i :| 0 <= i < |a[1..]| && a[1..][i] == (k, Get(a, k).value);
      assert a[i + 1] == a[1..][i];
    } else {
      assert a[0] == (k, Get(a, k).value);
    }
  }

  /** Rewrites every value with `f`, keeping keys and their order. */
  function MapValues<K(==,!new), V>(a: seq<(K, V)>, f: (K, V) -> V): (r: seq<(K, V)>)
    ensures Keys(r) == Keys(a)
    ensures forall k :: Get(r, k) == (if Get(a, k).Some? then Some(f(k, Get(a, k).value)) else None)
    ensures Unique(a) ==> Unique(r)
  {
    if |a| == 0 then []
    else
      var t := MapValues(a[1..], f);
      var r := [(a[0].0, f(a[0].0, a[0].1))] + t;
      assert r[1..] == t;
      r
  }
}

=== FILE: base.dfy ===
/** Small shared vocabulary: an optional value, and the identifiers the
    presence engine passes around. */
module Base {

  /** A value that may be missing (JavaScript `undefined`/`null`). */
  datatype Option<+T> = None | Some(value: T) {

    /** The wrapped value, or `default` when missing (JavaScript `x || default`
        for a value that is never falsy when present). */
    function GetOr(default: T): T {
      match this
      case Some(v) => v
      case None => default
    }
  }

  /** A user's name: the identity key of every presence table. */
  type UserName = string

  /** The id of one transport connection (a socket). */
  type SocketId = string

  /** The client address a connection is keyed by for throttling. */
  type Ip = string

  /** A timestamp or a duration, in milliseconds. */
  type Millis = int
}

=== FILE: binding.dfy ===
/** The handlers that bind a user name to a connection (server.js): the
    connection handshake with its per-address throttle, `connected`,
    `AlreadyGuest`, `user-online`, `ping-user` and `heartbeat`. */
module Binding {
  import opened Base
  import opened Assoc
  import opened Text
  import opened Presence
  import RateLimit
  import Registration

  /** `socket.handshake.auth`: a missing field is `""`. */
  datatype Auth = Auth(userName: string, token: string)

  /** A new connection from `ip` with socket id `sid`. Connections from one
      address less than 1 s apart are refused; otherwise the time is recorded
      and, when the handshake carries a name with a token containing it and the
      user exists, the socket is bound and the user's `lastSeen` refreshed. */
  function OnConnection(s: Server, ip: Ip, sid: SocketId, auth: Auth, now: Millis): (r: Step)
    ensures var last := if ip in s.connectTimes then s.connectTimes[ip] else 0;
            now - last < RateLimit.ConnectionThrottleMs ==>
              r == Step(s, [ToCaller(PleaseWait), CloseCaller])
    ensures var last := if ip in s.connectTimes then s.connectTimes[ip] else 0;
            now - last >= RateLimit.ConnectionThrottleMs ==>
              r.emits == [] && r.server.connectTimes == s.connectTimes[ip := now]
    ensures forall n :: n != auth.userName ==> BoundTo(r.server, n) == BoundTo(s, n)
    ensures BoundTo(r.server, auth.userName) != BoundTo(s, auth.userName) ==>
              BoundTo(r.server, auth.userName) == Some(sid) && Lookup(s, auth.userName).Some? &&
              Contains(auth.token, auth.userName) && auth.userName != ""
    ensures var last := if ip in s.connectTimes then s.connectTimes[ip] else 0;
            var name := auth.userName;
            && now - last >= RateLimit.ConnectionThrottleMs
            && name != "" && auth.token != "" && Contains(auth.token, name) && Lookup(s, name).Some? ==>
              && BoundTo(r.server, name) == Some(sid)
              && Lookup(r.server, name) == Some(Lookup(s, name).value.(lastSeen := Some(now)))
    ensures forall n :: n != auth.userName ==> Lookup(r.server, n) == Lookup(s, n)
    ensures r.server == s.(connectTimes := r.server.connectTimes, active := r.server.active, store := r.server.store)
    ensures var name := auth.userName;
            !(name != "" && auth.token != "" && Contains(auth.token, name) && Lookup(s, name).Some?) ==>
              r.server == s.(connectTimes := r.server.connectTimes)
    ensures Valid(s) ==> Valid(r.server)
  {
    var g := RateLimit.Gate(s.connectTimes, ip, now, RateLimit.ConnectionThrottleMs);
    if !g.passed then Step(s, [ToCaller(PleaseWait), CloseCaller])
    else
      var s1 := s.(connectTimes := g.times);
      var name := auth.userName;
      if name != "" && auth.token != "" && Contains(auth.token, name) && Lookup(s1, name).Some? then
        Step(UpdateUser(Bind(s1, name, sid), name, Touch(now)), [])
      else Step(s1, [])
  }

  /** `formData.country || 'Unknown'`. */
  function OrUnknown(s: string): (r: string)
    ensures s == "" ==> r == "Unknown"
    ensures s != "" ==> r == s
  {
    if s == "" then "Unknown" else s
  }

  /** `connected`: validates the registration; an existing user is set online
      on this socket and told `UserExist`, a new one is created online with an
      empty chat window and told `userAdded`; either way the name is bound,
      `user-online` is broadcast and a roster update scheduled. */
  function Connected(s: Server, sid: SocketId, p: Registration.Registration, now: Millis): (r: Step)
    ensures Registration.CheckRegistration(p).Some? ==>
              r == Step(s, [ToCaller(ConnectionError(Registration.CheckRegistration(p).value))])
    ensures Registration.CheckRegistration(p).None? ==>
              && Lookup(r.server, p.userName).Some?
              && Lookup(r.server, p.userName).value.online
              && Lookup(r.server, p.userName).value.lastSeen == Some(now)
              && Lookup(r.server, p.userName).value.socketId == sid
              && BoundTo(r.server, p.userName) == Some(sid)
              && r.server.updates.pending == s.updates.pending + {p.userName}
              && |r.emits| == 2 && r.emits[1] == ToAll(UserOnline(p.userName, None))
    ensures Registration.CheckRegistration(p).None? && Lookup(s, p.userName).Some? ==>
              r.emits[0] == ToCaller(UserExist) &&
              Lookup(r.server, p.userName).value.chatWindow == Lookup(s, p.userName).value.chatWindow
    ensures Registration.CheckRegistration(p).None? && Lookup(s, p.userName).None? ==>
              r.emits[0] == ToCaller(UserAdded(p.userName)) &&
              Lookup(r.server, p.userName).value.chatWindow == [] &&
              Lookup(r.server, p.userName).value.country == OrUnknown(p.country)
    ensures forall n :: n != p.userName ==> Lookup(r.server, n) == Lookup(s, n) && BoundTo(r.server, n) == BoundTo(s, n)
    ensures r.server == s.(active := r.server.active, store := r.server.store, updates := r.server.updates)
    ensures Valid(s) ==> Valid(r.server)
  {
    match Registration.CheckRegistration(p)
    case Some(msg) => Step(s, [ToCaller(ConnectionError(msg))])
    case None =>
      var name := p.userName;
      if Lookup(s, name).Some? then
        var s1 := Bind(UpdateUser(s, name, GoOnline(now, sid)), name, sid);
        Step(ScheduleUpdate(s1, name), [ToCaller(UserExist), ToAll(UserOnline(name, None))])
      else
        var rec := Record(true, Some(now), sid, OrUnknown(p.country), OrUnknown(p.region), []);
        var s1 := Bind(s.(store := Put(s.store, name, rec)), name, sid);
        Step(ScheduleUpdate(s1, name), [ToCaller(UserAdded(name)), ToAll(UserOnline(name, None))])
  }

  /** The `AlreadyGuest` payload after parsing: `userName` and its alternative
      spelling `username`, each `""` when absent. */
  datatype GuestData = GuestData(userName: string, username: string)

  /** `AlreadyGuest`: revives a stored guest on this socket. No payload, no
      name, or an unknown name is refused with nothing changed; otherwise the
      user goes online on this socket, is bound, accepted, and `user-online`
      and an immediate `userUpdate` are broadcast. */
  function AlreadyGuest(s: Server, sid: SocketId, data: Option<GuestData>, now: Millis): (r: Step)
    ensures data.None? ==> r == Step(s, [ToCaller(ConnectionRefused(Some("Invalid data received")))])
    ensures data.Some? && data.value.userName == "" && data.value.username == "" ==>
              r == Step(s, [ToCaller(ConnectionRefused(Some("Username is required")))])
    ensures data.Some? ==> var name := OrElse(data.value.userName, data.value.username);
              && (name != "" && Lookup(s, name).None? ==> r == Step(s, [ToCaller(ConnectionRefused(None))]))
              && (name != "" && Lookup(s, name).Some? ==>
                    && Lookup(r.server, name) == Some(Apply(Lookup(s, name).value, GoOnline(now, sid)))
                    && BoundTo(r.server, name) == Some(sid)
                    && r.emits == [ToCaller(ConnectionAccepted(name)), ToAll(UserOnline(name, None)), ToAll(UserUpdate)])
              && forall n :: n != name ==> Lookup(r.server, n) == Lookup(s, n) && BoundTo(r.server, n) == BoundTo(s, n)
    ensures r.server == s.(active := r.server.active, store := r.server.store)
    ensures Valid(s) ==> Valid(r.server)
  {
    match data
    case None => Step(s, [ToCaller(ConnectionRefused(Some("Invalid data received")))])
    case Some(d) =>
      var name := OrElse(d.userName, d.username);
      if name == "" then Step(s, [ToCaller(ConnectionRefused(Some("Username is required")))])
      else if Lookup(s, name).None? then Step(s, [ToCaller(ConnectionRefused(None))])
      else
        Step(Bind(UpdateUser(s, name, GoOnline(now, sid)), name, sid),
             [ToCaller(ConnectionAccepted(name)), ToAll(UserOnline(name, None)), ToAll(UserUpdate)])
  }

  /** `a || b` on strings. */
  function OrElse(a: string, b: string): string {
    if a != "" then a else b
  }

  /** The argument of `user-online` / `ping-user`: a bare name, or an object
      with a name and optional location (`""` when absent). */
  datatype PresenceArg = ByName(name: string) | ByObject(userName: string, country: string, region: string)

  function ArgName(a: PresenceArg): string {
    match a
    case ByName(n) => n
    case ByObject(n, _, _) => n
  }

  /** The location the handler works with: `'Unknown'` unless the object
      form supplies one. */
  function ArgLocation(a: PresenceArg): (l: Location)
    ensures a.ByName? ==> l == Location("Unknown", "Unknown")
    ensures a.ByObject? ==> l.country == (if a.country == "" then "Unknown" else a.country)
    ensures a.ByObject? ==> l.region == (if a.region == "" then "Unknown" else a.region)
    ensures l.country != "" && l.region != ""
  {
    match a
    case ByName(_) => Location("Unknown", "Unknown")
    case ByObject(_, c, r) => Location(OrUnknown(c), OrUnknown(r))
  }

  /** `{ lastSeen, ...(country !== 'Unknown' && { country }), ...(region ...) }`:
      a location field is only written when it is known. */
  function SeenAt(now: Millis, l: Location): (p: Patch)
    ensures p.online.None? && p.socketId.None? && p.lastSeen == Some(now)
    ensures p.country.Some? <==> l.country != "Unknown"
    ensures p.region.Some? <==> l.region != "Unknown"
    ensures p.country.Some? ==> p.country.value == l.country
    ensures p.region.Some? ==> p.region.value == l.region
  {
    Patch(None, Some(now),  None,
          if l.country != "Unknown" then Some(l.country) else None,
          if l.region != "Unknown" then Some(l.region) else None)
  }

  /** Applying the `user-online` update touches only `lastSeen` and the
      known location fields: `online`, `socketId` and the chat window are
      kept, and a bare name writes no location at all. */
  lemma SeenAtWritesOnlyKnownLocation(rec: Record, now: Millis, a: PresenceArg)
    ensures var l := ArgLocation(a);
            Apply(rec, SeenAt(now, l)) ==
              rec.(lastSeen := Some(now),
                   country := if l.country != "Unknown" then l.country else rec.country,
                   region := if l.region != "Unknown" then l.region else rec.region)
    ensures a.ByName? ==> Apply(rec, SeenAt(now, ArgLocation(a))) == rec.(lastSeen := Some(now))
  {
  }

  /** `user-online`: for a stored user, binds the name to this socket (last
      bind wins), refreshes `lastSeen` and any known location, and broadcasts
      `user-online` with the location. It does not itself set `online`. An
      unknown user gets `user-not-found` and nothing changes. */
  function UserOnlineEvent(s: Server, sid: SocketId, arg: PresenceArg, now: Millis): (r: Step)
    ensures ArgName(arg) == "" ==> r == Step(s, [])
    ensures ArgName(arg) != "" && Lookup(s, ArgName(arg)).None? ==>
              r == Step(s, [ToCaller(UserNotFound(ArgName(arg)))])
    ensures ArgName(arg) != "" && Lookup(s, ArgName(arg)).Some? ==>
              && BoundTo(r.server, ArgName(arg)) == Some(sid)
              && Lookup(r.server, ArgName(arg)) == Some(Apply(Lookup(s, ArgName(arg)).value, SeenAt(now, ArgLocation(arg))))
              && Lookup(r.server, ArgName(arg)).value.online == Lookup(s, ArgName(arg)).value.online
              && r.emits == [ToAll(UserOnline(ArgName(arg), Some(ArgLocation(arg))))]
    ensures forall n :: n != ArgName(arg) ==> Lookup(r.server, n) == Lookup(s, n) && BoundTo(r.server, n) == BoundTo(s, n)
    ensures r.server == s.(active := r.server.active, store := r.server.store)
    ensures Valid(s) ==> Valid(r.server)
  {
    var name := ArgName(arg);
    if name == "" then Step(s, [])
    else if Lookup(s, name).None? then Step(s, [ToCaller(UserNotFound(name))])
    else
      var loc := ArgLocation(arg);
      Step(UpdateUser(Bind(s, name, sid), name, SeenAt(now, loc)), [ToAll(UserOnline(name, Some(loc)))])
  }

  /** `ping-user`: like `user-online` for the store, but binds only a name
      that is currently unbound, and broadcasts nothing. */
  function PingUser(s: Server, sid: SocketId, arg: PresenceArg, now: Millis): (r: Step)
    ensures ArgName(arg) == "" ==> r == Step(s, [])
    ensures ArgName(arg) != "" && Lookup(s, ArgName(arg)).None? ==>
              r == Step(s, [ToCaller(UserNotFound(ArgName(arg)))])
    ensures ArgName(arg) != "" && Lookup(s, ArgName(arg)).Some? ==>
              && r.emits == []
              && Lookup(r.server, ArgName(arg)) == Some(Apply(Lookup(s, ArgName(arg)).value, SeenAt(now, ArgLocation(arg))))
              && BoundTo(r.server, ArgName(arg)) == (if BoundTo(s, ArgName(arg)).Some? then BoundTo(s, ArgName(arg)) else Some(sid))
    ensures BoundTo(s, ArgName(arg)).Some? ==> r.server.active == s.active
    ensures forall n :: n != ArgName(arg) ==> Lookup(r.server, n) == Lookup(s, n) && BoundTo(r.server, n) == BoundTo(s, n)
    ensures r.server == s.(active := r.server.active, store := r.server.store)
    ensures Valid(s) ==> Valid(r.server)
  {
    var name := ArgName(arg);
    if name == "" then Step(s, [])
    else if Lookup(s, name).None? then Step(s, [ToCaller(UserNotFound(name))])
    else
      var s1 := UpdateUser(s, name, SeenAt(now, ArgLocation(arg)));
      Step(if Has(s1.active, name) then s1 else Bind(s1, name, sid), [])
  }

  /** A heartbeat: `{ userName, lastActive }`, with `lastActive` 0 when absent. */
  datatype Beat = Beat(userName: string, lastActive: Millis)

  /** `heartbeat`: records the client's last activity (or `now`), binds the
      name to this socket whether or not the user is stored, and — on the
      randomly chosen one in five beats, `dbWrite` — sets the stored user
      online on this socket. Emits nothing. */
  function Heartbeat(s: Server, sid: SocketId, beat: Beat, dbWrite: bool, now: Millis): (r: Step)
    ensures r.emits == []
    ensures beat.userName == "" ==> r.server == s
    ensures beat.userName != "" ==>
              && BoundTo(r.server, beat.userName) == Some(sid)
              && Get(r.server.sessions, beat.userName) == Some(if beat.lastActive != 0 then beat.lastActive else now)
              && Lookup(r.server, beat.userName) ==
                   (if dbWrite && Lookup(s, beat.userName).Some?
                    then Some(Apply(Lookup(s, beat.userName).value, GoOnline(now, sid)))
                    else Lookup(s, beat.userName))
    ensures forall n :: n != beat.userName ==> Lookup(r.server, n) == Lookup(s, n) && BoundTo(r.server, n) == BoundTo(s, n)
    ensures forall n :: n != beat.userName ==> Get(r.server.sessions, n) == Get(s.sessions, n)
    ensures r.server == s.(active := r.server.active, store := r.server.store, sessions := r.server.sessions)
    ensures Valid(s) ==> Valid(r.server)
  {
    var name := beat.userName;
    if name == "" then Step(s, [])
    else
      var active := if beat.lastActive != 0 then beat.lastActive else now;
      var s1 := Bind(s.(sessions := Put(s.sessions, name, active)), name, sid);
      Step(if dbWrite then UpdateUser(s1, name, GoOnline(now, sid)) else s1, [])
  }
}

=== FILE: disconnect.dfy ===
/** The offline side of presence (server.js): the `disconnect` state machine
    with its 10 s grace period, the explicit `user-offline` event and REST
    endpoint, and the 30-minute expiry of idle sessions. */
module Disconnect {
  import opened Base
  import opened Assoc
  import opened Presence

  const GraceMs := 10000
  const RecentActivityMs := 60000
  const SessionTimeoutMs := 30 * 60 * 1000

  /** Reasons the transport reports that are likely to heal on reconnect. */
  predicate IsTransient(reason: string) {
    reason == "transport close" || reason == "ping timeout"
  }

  /** Reasons that mean the connection was closed on purpose. */
  predicate IsIntentional(reason: string) {
    reason == "client namespace disconnect" || reason == "server namespace disconnect"
  }

  /** A pending grace-period check: the user, the socket that closed, and when
      the check runs. */
  datatype GraceTimer = GraceTimer(user: UserName, socket: SocketId, due: Millis)

  /** A disconnect's effect, plus the grace check it schedules, if any. */
  datatype Closed = Closed(step: Step, grace: Option<GraceTimer>)

  /** The user, the socket and the time of an offline transition: the user's
      record goes offline (if stored), the name is unbound, `user-offline` is
      broadcast once and a roster update is scheduled. */
  function GoneOffline(s: Server, u: UserName, now: Millis): (r: Step)
    ensures BoundTo(r.server, u) == None
    ensures Lookup(r.server, u) == (if Lookup(s, u).Some? then Some(Apply(Lookup(s, u).value, GoOffline(now))) else None)
    ensures r.emits == [ToAll(UserOffline(u, Some(now)))]
    ensures r.server.updates.pending == s.updates.pending + {u}
    ensures forall n :: n != u ==> Lookup(r.server, n) == Lookup(s, n) && BoundTo(r.server, n) == BoundTo(s, n)
    ensures r.server.sessions == s.sessions && r.server.limits == s.limits
    ensures r.server == s.(active := r.server.active, store := r.server.store, updates := r.server.updates)
    ensures Valid(s) ==> Valid(r.server)
  {
    Step(ScheduleUpdate(Unbind(UpdateUser(s, u, GoOffline(now)), u), u), [ToAll(UserOffline(u, Some(now)))])
  }

  /** `disconnect` of socket `sid`. The user is the last name bound to `sid`;
      with none, or with the empty name (which `if (disconnectedUser)` treats
      as none), nothing happens. A transient reason only schedules a grace
      check 10 s later; an intentional one takes the user offline at once; any
      other reason changes nothing. */
  function OnDisconnect(s: Server, sid: SocketId, reason: string, now: Millis): (r: Closed)
    ensures var found := LastKeyWith(s.active, sid);
            found.None? || found.value == "" || !(IsTransient(reason) || IsIntentional(reason)) ==>
              r == Closed(Step(s, []), None)
    ensures var found := LastKeyWith(s.active, sid);
            found.Some? && found.value != "" && IsTransient(reason) ==>
              r == Closed(Step(s, []), Some(GraceTimer(found.value, sid, now + GraceMs)))
    ensures var found := LastKeyWith(s.active, sid);
            found.Some? && found.value != "" && IsIntentional(reason) ==>
              var u := found.value;
              && r.grace.None?
              && BoundTo(r.step.server, u) == None
              && Lookup(r.step.server, u) == (if Lookup(s, u).Some? then Some(Apply(Lookup(s, u).value, GoOffline(now))) else None)
              && r.step.emits == [ToAll(UserOffline(u, Some(now)))]
              && r.step.server.updates.pending == s.updates.pending + {u}
              && r.step.server == s.(active := r.step.server.active, store := r.step.server.store, updates := r.step.server.updates)
              && forall n :: n != u ==> Lookup(r.step.server, n) == Lookup(s, n) && BoundTo(r.step.server, n) == BoundTo(s, n)
    ensures Valid(s) ==> Valid(r.step.server)
  {
    match LastKeyWith(s.active, sid)
    case None => Closed(Step(s, []), None)
    case Some(u) =>
      if u == "" then Closed(Step(s, []), None)
      else if IsTransient(reason) then Closed(Step(s, []), Some(GraceTimer(u, sid, now + GraceMs)))
      else if IsIntentional(reason) then Closed(GoneOffline(s, u, now), None)
      else Closed(Step(s, []), None)
  }

  /** When the name is bound to a socket, that socket's disconnect concerns
      this user, unless a later-listed name shares the socket. */
  lemma DisconnectFindsBoundUser(s: Server, u: UserName, sid: SocketId)
    requires Valid(s)
    requires BoundTo(s, u) == Some(sid)
    ensures LastKeyWith(s.active, sid).Some?
    ensures BoundTo(s, LastKeyWith(s.active, sid).value) == Some(sid)
  {
    GetIndex(s.active, u);
    var i :| 0 <= i < |s.active| && s.active[i] == (u, sid);
    var k := LastKeyWith(s.active, sid).value;
    var j :| 0 <= j < |s.active| && s.active[j] == (k, sid);
    GetAt(s.active, j);
  }

  /** The grace check fires. It does nothing if the name has since been bound
      to another socket (or unbound), or if the user was active within the
      last minute, or if the user is not stored; otherwise the user goes
      offline exactly as for an intentional disconnect. */
  function GraceExpiry(s: Server, t: GraceTimer, now: Millis): (r: Step)
    ensures BoundTo(s, t.user) != Some(t.socket) ==> r == Step(s, [])
    ensures now - Get(s.sessions, t.user).GetOr(0) < RecentActivityMs ==> r == Step(s, [])
    ensures Lookup(s, t.user).None? ==> r == Step(s, [])
    ensures BoundTo(s, t.user) == Some(t.socket) && now - Get(s.sessions, t.user).GetOr(0) >= RecentActivityMs &&
            Lookup(s, t.user).Some? ==>
              r == GoneOffline(s, t.user, now)
    ensures Valid(s) ==> Valid(r.server)
  {
    if BoundTo(s, t.user) != Some(t.socket) then Step(s, [])
    else if now - Get(s.sessions, t.user).GetOr(0) < RecentActivityMs then Step(s, [])
    else if Lookup(s, t.user).None? then Step(s, [])
    else GoneOffline(s, t.user, now)
  }

  /** The explicit `user-offline` notice: `{ userName, timestamp }`, the
      timestamp missing or client-supplied. */
  datatype OfflineNotice = OfflineNotice(userName: string, timestamp: Option<Millis>)

  /** `user-offline`: the user goes offline now, is unbound, `user-offline` is
      broadcast with the client's timestamp when given, and a roster update is
      scheduled. The broadcast goes out even for a name that is not stored. */
  function UserOfflineEvent(s: Server, d: OfflineNotice, now: Millis): (r: Step)
    ensures d.userName == "" ==> r == Step(s, [])
    ensures d.userName != "" ==>
              && BoundTo(r.server, d.userName) == None
              && Lookup(r.server, d.userName) == (if Lookup(s, d.userName).Some? then Some(Apply(Lookup(s, d.userName).value, GoOffline(now))) else None)
              && r.emits == [ToAll(UserOffline(d.userName, Some(d.timestamp.GetOr(now))))]
              && r.server.updates.pending == s.updates.pending + {d.userName}
    ensures forall n :: n != d.userName ==> Lookup(r.server, n) == Lookup(s, n) && BoundTo(r.server, n) == BoundTo(s, n)
    ensures r.server == s.(active := r.server.active, store := r.server.store, updates := r.server.updates)
    ensures Valid(s) ==> Valid(r.server)
  {
    if d.userName == "" then Step(s, [])
    else
      var u := d.userName;
      Step(ScheduleUpdate(Unbind(UpdateUser(s, u, GoOffline(now)), u), u),
           [ToAll(UserOffline(u, Some(d.timestamp.GetOr(now))))])
  }

  /** `POST /api/user-offline` (sent by a closing page): like the socket event,
      but the stored `lastSeen` is the client's timestamp when given, and no
      roster update is scheduled. A request without a name changes nothing. */
  function ApiUserOffline(s: Server, d: OfflineNotice, now: Millis): (r: Step)
    ensures d.userName == "" ==> r == Step(s, [])
    ensures d.userName != "" ==>
              && BoundTo(r.server, d.userName) == None
              && Lookup(r.server, d.userName) == (if Lookup(s, d.userName).Some? then Some(Apply(Lookup(s, d.userName).value, GoOffline(d.timestamp.GetOr(now)))) else None)
              && r.emits == [ToAll(UserOffline(d.userName, Some(d.timestamp.GetOr(now))))]
              && r.server.updates == s.updates
    ensures forall n :: n != d.userName ==> Lookup(r.server, n) == Lookup(s, n) && BoundTo(r.server, n) == BoundTo(s, n)
    ensures r.server == s.(active := r.server.active, store := r.server.store)
    ensures Valid(s) ==> Valid(r.server)
  {
    if d.userName == "" then Step(s, [])
    else
      var u := d.userName;
      var at := d.timestamp.GetOr(now);
      Step(Unbind(UpdateUser(s, u, GoOffline(at)), u), [ToAll(UserOffline(u, Some(at)))])
  }

  /** The names whose last activity is more than 30 minutes before `now`, in
      session-table order. */
  function InactiveUsers(sessions: seq<(UserName, Millis)>, now: Millis): (r: seq<UserName>)
    ensures forall i :: 0 <= i < |r| ==> Has(sessions, r[i])
    ensures Unique(sessions) ==>
              forall u :: u in r <==> Get(sessions, u).Some? && now - Get(sessions, u).value > SessionTimeoutMs
  {
    if |sessions| == 0 then []
    else
      var rest := InactiveUsers(sessions[1..], now);
      if now - sessions[0].1 > SessionTimeoutMs then [sessions[0].0] + rest else rest
  }

  /** Session-table order, once per entry: an entry appended to the table
      adds its name at the end exactly when it is idle. */
  lemma {:induction false} InactiveUsersSnoc(sessions: seq<(UserName, Millis)>, x: (UserName, Millis), now: Millis)
    ensures InactiveUsers([], now) == []
    ensures InactiveUsers(sessions + [x], now) ==
              InactiveUsers(sessions, now) + (if now - x.1 > SessionTimeoutMs then [x.0] else [])
  {
    if |sessions| > 0 {
      var h := if now - sessions[0].1 > SessionTimeoutMs then [sessions[0].0] else [];
      assert (sessions + [x])[0] == sessions[0];
      assert (sessions + [x])[1..] == sessions[1..] + [x];
      InactiveUsersSnoc(sessions[1..], x, now);
      assert h + (InactiveUsers(sessions[1..], now) + (if now - x.1 > SessionTimeoutMs then [x.0] else [])) ==
             (h + InactiveUsers(sessions[1..], now)) + (if now - x.1 > SessionTimeoutMs then [x.0] else []);
    }
  }

  /** Expires each named session in turn: offline in the store (if stored),
      one `user-offline` broadcast each, dropped from the session table and
      unbound. */
  function ExpireAll(s: Server, names: seq<UserName>, now: Millis): (r: Step)
    ensures OfflineBroadcasts(r.emits) == names
    ensures forall u :: u in names ==>
              && BoundTo(r.server, u) == None
              && Get(r.server.sessions, u) == None
              && Lookup(r.server, u) == (if Lookup(s, u).Some? then Some(Apply(Lookup(s, u).value, GoOffline(now))) else None)
    ensures forall u :: u !in names ==>
              && BoundTo(r.server, u) == BoundTo(s, u)
              && Get(r.server.sessions, u) == Get(s.sessions, u)
              && Lookup(r.server, u) == Lookup(s, u)
    ensures r.server.updates == s.updates
    ensures r.server == s.(active := r.server.active, store := r.server.store, sessions := r.server.sessions)
    ensures Valid(s) ==> Valid(r.server)
    decreases |names|
  {
    if |names| == 0 then Step(s, [])
    else
      var u := names[0];
      var s1 := Unbind(UpdateUser(s, u, GoOffline(now)), u).(sessions := Remove(s.sessions, u));
      var e1 := [ToAll(UserOffline(u, Some(now)))];
      var rest := ExpireAll(s1, names[1..], now);
      OfflineBroadcastsAppend(e1, rest.emits);
      assert OfflineBroadcasts(e1) == [u];
      Step(rest.server, e1 + rest.emits)
  }

  /** `cleanupInactiveSessions` (every 5 minutes). */
  function CleanupInactiveSessions(s: Server, now: Millis): (r: Step)
    ensures OfflineBroadcasts(r.emits) == InactiveUsers(s.sessions, now)
    ensures r.server == s.(active := r.server.active, store := r.server.store, sessions := r.server.sessions)
  {
    ExpireAll(s, InactiveUsers(s.sessions, now), now)
  }

  /** After the cleanup no session older than 30 minutes is left, every
      expired user is unbound and offline, and everyone else is untouched. */
  lemma CleanupLeavesNoIdleSession(s: Server, now: Millis)
    requires Valid(s)
    ensures var r := CleanupInactiveSessions(s, now).server;
            && Valid(r)
            && (forall u :: Get(r.sessions, u).Some? ==> now - Get(r.sessions, u).value <= SessionTimeoutMs)
            && (forall u :: u in InactiveUsers(s.sessions, now) ==> BoundTo(r, u) == None)
            && (forall u :: u !in InactiveUsers(s.sessions, now) ==> BoundTo(r, u) == BoundTo(s, u) && Lookup(r, u) == Lookup(s, u))
  {
  }
}

=== FILE: lastseen.dfy ===
/** `formatLastSeen` (app/chat/page.js): how long ago a user was last seen,
    on a ladder of thresholds over whole seconds. */
module LastSeen {
  import opened Base
  import Text

  datatype Unit = Minute | Hour | Day

  /** What the label says. `OnDate` stands for the locale date string of
      the timestamp, which is outside this model. */
  datatype Label = Unknown | Online | JustNow | Ago(n: nat, unit: Unit) | OnDate(at: Millis)

  const SecondMs := 1000
  const MinuteMs := 60 * SecondMs
  const HourMs := 60 * MinuteMs
  const DayMs := 24 * HourMs

  /** `formatLastSeen(timestamp)` at time `now`. A missing or unparsable
      timestamp is `None`; a zero timestamp is falsy and reads as unknown
      too. The differences are floored step by step: seconds, then
      minutes, hours and days. */
  function FormatLastSeen(timestamp: Option<Millis>, now: Millis): (r: Label)
    ensures timestamp.None? || timestamp == Some(0) ==> r == Unknown
    ensures timestamp.Some? && timestamp.value != 0 ==>
              var d := now - timestamp.value;
              && (r == Online <==> d < 30 * SecondMs)
              && (r == JustNow <==> 30 * SecondMs <= d < MinuteMs)
              && (r.Ago? && r.unit == Minute <==> MinuteMs <= d < HourMs)
              && (r.Ago? && r.unit == Hour <==> HourMs <= d < DayMs)
              && (r.Ago? && r.unit == Day <==> DayMs <= d < 7 * DayMs)
              && (r.OnDate? <==> 7 * DayMs <= d)
              && (r.Ago? && r.unit == Minute ==> r.n == d / MinuteMs && 1 <= r.n < 60)
              && (r.Ago? && r.unit == Hour ==> r.n == d / HourMs && 1 <= r.n < 24)
              && (r.Ago? && r.unit == Day ==> r.n == d / DayMs && 1 <= r.n < 7)
              && (r.OnDate? ==> r.at == timestamp.value)
  {
    match timestamp
    case None => Unknown
    case Some(t) =>
      if t == 0 then Unknown
      else
        var seconds := (now - t) / 1000;
        var minutes := seconds / 60;
        var hours := minutes / 60;
        var days := hours / 24;
        FloorSteps(now - t);
        if seconds < 30 then Online
        else if seconds < 60 then JustNow
        else if minutes < 60 then Ago(minutes, Minute)
        else if hours < 24 then Ago(hours, Hour)
        else if days < 7 then Ago(days, Day)
        else OnDate(t)
  }

  /** Flooring in steps agrees with flooring once by the whole unit. */
  lemma FloorSteps(d: int)
    ensures d / 1000 / 60 == d / MinuteMs
    ensures d / 1000 / 60 / 60 == d / HourMs
    ensures d / 1000 / 60 / 60 / 24 == d / DayMs
  {
  }

  function UnitName(u: Unit): string {
    match u
    case Minute => "minute"
    case Hour => "hour"
    case Day => "day"
  }

  /** `w` is how `s` ends. */
  predicate EndsWith(s: string, w: string) {
    |w| <= |s| && s[|s| - |w|..] == w
  }

  /** The label as displayed, with the unit singular for one. */
  function Render(l: Label): (r: string)
    ensures l == Unknown ==> r == "Unknown"
    ensures l == Online ==> r == "Online"
    ensures l == JustNow ==> r == "Just now"
    ensures l.Ago? ==> Text.NatToString(l.n) + " " <= r
    ensures l.Ago? && l.n == 1 ==> EndsWith(r, " " + UnitName(l.unit) + " ago")
    ensures l.Ago? && l.n != 1 ==> EndsWith(r, " " + UnitName(l.unit) + "s ago")
  {
    match l
    case Unknown => "Unknown"
    case Online => "Online"
    case JustNow => "Just now"
    case Ago(n, u) =>
      var w := if n != 1 then UnitName(u) + "s ago" else UnitName(u) + " ago";
      var r := Text.NatToString(n) + " " + w;
      assert r[|r| - |w| - 1..] == " " + w;
      r
    case OnDate(_) => "(date)"
  }

  /** Every unit, every count: the count, the unit name, an `s` unless the
      count is one, and `ago`. */
  lemma RenderPlurals(n: nat, u: Unit)
    ensures Render(Ago(n, u)) == Text.NatToString(n) + " " + UnitName(u) + (if n == 1 then "" else "s") + " ago"
  {
  }

  /** The label only ever moves down the ladder as time passes: once a user
      shows as seen minutes ago, they never show as online again without a
      newer timestamp. */
  lemma LabelsAgeMonotonically(t: Millis, now1: Millis, now2: Millis)
    requires t != 0 && now1 <= now2
    requires FormatLastSeen(Some(t), now1) != Online
    ensures FormatLastSeen(Some(t), now2) != Online
  {
  }
}

=== FILE: login.dfy ===
/** The registration form of the login page (app/login/page.js): the live
    username check, the submit-time check order, the sanitised payload and the
    age choices. */
module Login {
  import opened Text
  import Registration

  const MinUserNameLength := 5
  const MaxUserNameLength := 15

  const TooShort := "Username must be at least 5 characters long"
  const TooLong := "Username cannot exceed 15 characters"
  const BadCharacters := "Username can only contain letters, numbers, and underscores"
  const NameRequired := "Username is required"
  const AgeRequired := "Please select your age"
  const GenderRequired := "Please select your gender"
  const TermsRequired := "You must accept the terms and policies to continue"

  /** `validateUsername`: the error to show under the name field, `""` when
      there is none. A blank name is deliberately not reported here. */
  function ValidateUserName(u: string): (err: string)
    ensures err == "" <==>
      IsBlank(u) || (MinUserNameLength <= |u| <= MaxUserNameLength && Registration.IsWordString(u))
    ensures !IsBlank(u) && |u| < MinUserNameLength ==> err == TooShort
    ensures !IsBlank(u) && |u| > MaxUserNameLength ==> err == TooLong
    ensures !IsBlank(u) && MinUserNameLength <= |u| <= MaxUserNameLength && !Registration.IsWordString(u) ==>
              err == BadCharacters
    ensures err in {"", TooShort, TooLong, BadCharacters}
  {
    if IsBlank(u) then ""
    else if |u| < MinUserNameLength then TooShort
    else if |u| > MaxUserNameLength then TooLong
    else if !Registration.IsWordString(u) then BadCharacters
    else ""
  }

  /** The `ageOptions` of the age select: 18 up to 100. */
  function AgeOptions(): (ages: seq<nat>)
    ensures |ages| == 83
    ensures forall i :: 0 <= i < |ages| ==> ages[i] == Registration.MinAge + i
  {
    seq(83, i requires 0 <= i < 83 => 18 + i)
  }

  /** The age choices are exactly the ages 18..100. */
  lemma AgeOptionsAreAdultAges(a: int)
    ensures a in AgeOptions() <==> 18 <= a <= 100
  {
    if 18 <= a <= 100 {
      assert AgeOptions()[a - 18] == a;
    }
  }

  /** The form state: every field is the raw string the inputs hold. */
  datatype LoginForm = LoginForm(userName: string, age: string, gender: string, country: string, region: string)

  /** What a submit does: shows the first failing check, or emits `connected`. */
  datatype Submission = Rejected(toast: string) | Submitted(payload: Registration.Registration)

  /** A blank location field becomes `'Unknown'`. */
  function OrUnknown(s: string): (r: string)
    ensures IsBlank(s) ==> r == "Unknown"
    ensures !IsBlank(s) ==> r == Trim(s) && r != ""
  {
    var t := Trim(s);
    if t == "" then "Unknown" else t
  }

  /** `handleSubmit`: checks the name rule, then non-blank name, age, gender and
      the terms box, in that order; only when all pass is the sanitised payload
      emitted. */
  function HandleSubmit(f: LoginForm, termsAccepted: bool, now: int): (r: Submission)
    ensures r.Submitted? <==>
      !IsBlank(f.userName) && ValidateUserName(f.userName) == "" &&
      f.age != "" && f.gender != "" && termsAccepted
    ensures ValidateUserName(f.userName) != "" ==> r == Rejected(ValidateUserName(f.userName))
    ensures IsBlank(f.userName) ==> r == Rejected(NameRequired)
    ensures !IsBlank(f.userName) && ValidateUserName(f.userName) == "" && f.age == "" ==> r == Rejected(AgeRequired)
    ensures !IsBlank(f.userName) && ValidateUserName(f.userName) == "" && f.age != "" && f.gender == "" ==>
              r == Rejected(GenderRequired)
    ensures !IsBlank(f.userName) && ValidateUserName(f.userName) == "" && f.age != "" && f.gender != "" && !termsAccepted ==>
              r == Rejected(TermsRequired)
    ensures r.Submitted? ==>
      && r.payload.userName == f.userName
      && Registration.IsWordString(r.payload.userName)
      && r.payload.age == ToNumber(f.age)
      && r.payload.gender == f.gender
      && r.payload.country == OrUnknown(f.country)
      && r.payload.region == OrUnknown(f.region)
      && r.payload.online
  {
    var err := ValidateUserName(f.userName);
    if err != "" then Rejected(err)
    else if Trim(f.userName) == "" then Rejected(NameRequired)
    else if f.age == "" then Rejected(AgeRequired)
    else if f.gender == "" then Rejected(GenderRequired)
    else if !termsAccepted then Rejected(TermsRequired)
    else
      TrimWordString(f.userName);
      Submitted(Registration.Registration(
        Trim(f.userName), ToNumber(f.age), f.gender,
        OrUnknown(f.country), OrUnknown(f.region), true, now))
  }

  /** A name the pattern accepts has no whitespace to trim. */
  lemma TrimWordString(u: string)
    requires Registration.IsWordString(u)
    ensures Trim(u) == u
  {
    TrimNoSpace(u);
  }

  /** A name of 5 to 15 word characters, an age and a gender pass every
      client check. */
  lemma FormPassesClientChecks(f: LoginForm, now: int)
    requires MinUserNameLength <= |f.userName| <= MaxUserNameLength && Registration.IsWordString(f.userName)
    requires f.age != "" && f.gender != ""
    ensures HandleSubmit(f, true, now).Submitted?
  {
    assert !IsBlank(f.userName) by {
      assert Registration.IsWordChar(f.userName[0]);
    }
  }

  /** The age field holding a rendered age reads back as that age. */
  lemma AgeFieldReadsBack(a: nat)
    ensures ToNumber(NatToString(a)) == Finite(a)
  {
    TrimNoSpace(NatToString(a));
    DigitsRoundTrip(a);
  }

  /** A form the client submits, with one of the offered ages, always passes
      the server's registration checks: the two sides agree. */
  lemma {:induction false} SubmittedFormIsAdmitted(f: LoginForm, a: nat, now: int)
    requires a in AgeOptions()
    requires f.age == NatToString(a)
    requires MinUserNameLength <= |f.userName| <= MaxUserNameLength && Registration.IsWordString(f.userName)
    requires f.gender != ""
    ensures HandleSubmit(f, true, now).Submitted?
    ensures Registration.CheckRegistration(HandleSubmit(f, true, now).payload).None?
  {
    FormPassesClientChecks(f, now);
    AgeOptionsAreAdultAges(a);
    AgeFieldReadsBack(a);
  }
}

=== FILE: messages.dfy ===
/** Chat messages as the server stores them in a user's `chatWindow` and the
    client keeps them in its roster. */
module Messages {
  import opened Base

  datatype Message = Message(
    user: UserName,          // sender
    to: UserName,            // recipient
    text: string,
    timestamp: Millis,
    id: string,
    imageUrl: Option<string>,
    read: bool)

  /** Some message of `w` carries id `id`. */
  predicate HasId(w: seq<Message>, id: string) {
    exists i :: 0 <= i < |w| && w[i].id == id
  }

  /** No two messages of `w` share an id. */
  predicate IdsUnique(w: seq<Message>) {
    forall i, j :: 0 <= i < j < |w| ==> w[i].id != w[j].id
  }
}

=== FILE: messaging.dfy ===
/** Messaging as it touches presence (server.js): `send-message` behind the
    rate limiter, with the sender's and recipient's copies differing only in
    their read flag, and `mark-messages-read` behind its per-socket debounce. */
module Messaging {
  import opened Base
  import opened Assoc
  import opened Messages
  import opened Presence
  import RateLimit
  import Throttle

  const TooFast := "You are sending messages too quickly. Please wait a moment and try again."

  /** The payload of `send-message`. */
  datatype Outgoing = Outgoing(user: UserName, to: UserName, text: string, timestamp: Millis, id: string, imageUrl: Option<string>)

  /** The stored copy of an outgoing message, with the given read flag. */
  function Copy(m: Outgoing, read: bool): (r: Message)
    ensures r.user == m.user && r.to == m.to && r.id == m.id && r.read == read
    ensures r.text == m.text && r.timestamp == m.timestamp && r.imageUrl == m.imageUrl
  {
    Message(m.user, m.to, m.text, m.timestamp, m.id, m.imageUrl, read)
  }

  /** `$push: { chatWindow: m }, lastSeen: now` on a stored user; a missing
      user stays missing. */
  function Deliver(s: Server, name: UserName, m: Message, now: Millis): (r: Server)
    ensures Lookup(r, name) ==
              (if Lookup(s, name).Some?
               then Some(Lookup(s, name).value.(lastSeen := Some(now), chatWindow := Lookup(s, name).value.chatWindow + [m]))
               else None)
    ensures forall n :: n != name ==> Lookup(r, n) == Lookup(s, n)
    ensures r == s.(store := r.store)
    ensures Valid(s) ==> Valid(r)
  {
    match Lookup(s, name)
    case None => s
    case Some(rec) => s.(store := Put(s.store, name, rec.(lastSeen := Some(now), chatWindow := rec.chatWindow + [m])))
  }

  /** The store and binding effects of an admitted `send-message` on socket
      `sid`: the sender's record goes online on `sid`, the recipient's is
      marked online only when the recipient is bound, the sender is bound to
      `sid`, and the recipient's window gets the unread copy and the
      sender's the read copy. */
  function StoreMessage(s: Server, sid: SocketId, m: Outgoing, now: Millis): (r: Server)
    ensures r == s.(active := r.active, store := r.store)
    ensures BoundTo(r, m.user) == Some(sid)
    ensures forall n :: n != m.user ==> BoundTo(r, n) == BoundTo(s, n)
    ensures forall n :: n != m.user && n != m.to ==> Lookup(r, n) == Lookup(s, n)
    ensures Valid(s) ==> Valid(r)
  {
    var toBound := BoundTo(s, m.to).Some?;
    var s1 := UpdateUser(s, m.user, GoOnline(now, sid));
    var s2 := if toBound then UpdateUser(s1, m.to, Patch(Some(true), Some(now), None, None, None)) else s1;
    var s3 := Bind(s2, m.user, sid);
    Deliver(Deliver(s3, m.to, Copy(m, false), now), m.user, Copy(m, true), now)
  }

  /** An admitted `send-message` on socket `sid`: the message is stored,
      `user-online` is broadcast for the sender and (when bound) the
      recipient, the sender is confirmed with the read copy and a bound
      recipient receives the unread copy. */
  function Admit(s: Server, sid: SocketId, m: Outgoing, now: Millis): (r: Step)
    ensures r.server == s.(active := r.server.active, store := r.server.store)
    ensures BoundTo(r.server, m.user) == Some(sid)
    ensures var b := BoundTo(r.server, m.to);
            r.emits == [ToAll(UserOnline(m.user, None))] +
                       (if b.Some? then [ToAll(UserOnline(m.to, None))] else []) +
                       [ToSocket(sid, MessageSent(true, Some(Copy(m, true)), None))] +
                       (if b.Some? then [ToSocket(b.value, ReceiveMessage(Copy(m, false)))] else [])
    ensures |r.emits| >= 2
    ensures r.emits[0] == ToAll(UserOnline(m.user, None))
    ensures ToSocket(sid, MessageSent(true, Some(Copy(m, true)), None)) in r.emits
    ensures ToAll(UserOnline(m.to, None)) in r.emits <==> BoundTo(s, m.to).Some? || m.to == m.user
    ensures forall t, e :: ToSocket(t, ReceiveMessage(e)) in r.emits <==>
              e == Copy(m, false) && BoundTo(r.server, m.to) == Some(t)
    ensures forall n :: n != m.user && n != m.to ==> Lookup(r.server, n) == Lookup(s, n)
    ensures forall n :: n != m.user ==> BoundTo(r.server, n) == BoundTo(s, n)
    ensures Valid(s) ==> Valid(r.server)
  {
    var s4 := StoreMessage(s, sid, m, now);
    var announce := [ToAll(UserOnline(m.user, None))] +
                    (if BoundTo(s4, m.to).Some? then [ToAll(UserOnline(m.to, None))] else []);
    var confirm := [ToSocket(sid, MessageSent(true, Some(Copy(m, true)), None))];
    var forward := match BoundTo(s4, m.to)
                   case Some(rsid) => [ToSocket(rsid, ReceiveMessage(Copy(m, false)))]
                   case None => [];
    Step(s4, announce + confirm + forward)
  }

  /** `send-message` on socket `sid`. A sender over the limit gets a failed
      `message-sent` and only the limiter's table changes; otherwise the
      message is admitted with the limiter's table updated. */
  function SendMessage(s: Server, sid: SocketId, m: Outgoing, now: Millis): (r: Step)
    ensures var adm := RateLimit.IsRateLimited(s.limits, m.user, now);
            adm.limited ==> r == Step(s.(limits := adm.limits), [ToCaller(MessageSent(false, None, Some(TooFast)))])
    ensures var adm := RateLimit.IsRateLimited(s.limits, m.user, now);
            !adm.limited ==>
              && r.server == s.(limits := adm.limits, active := r.server.active, store := r.server.store)
              && BoundTo(r.server, m.user) == Some(sid)
              && (var b := BoundTo(r.server, m.to);
                  r.emits == [ToAll(UserOnline(m.user, None))] +
                             (if b.Some? then [ToAll(UserOnline(m.to, None))] else []) +
                             [ToSocket(sid, MessageSent(true, Some(Copy(m, true)), None))] +
                             (if b.Some? then [ToSocket(b.value, ReceiveMessage(Copy(m, false)))] else []))
              && |r.emits| >= 2
              && r.emits[0] == ToAll(UserOnline(m.user, None))
              && ToSocket(sid, MessageSent(true, Some(Copy(m, true)), None)) in r.emits
              && (ToAll(UserOnline(m.to, None)) in r.emits <==> BoundTo(s, m.to).Some? || m.to == m.user)
              && (forall t, e :: ToSocket(t, ReceiveMessage(e)) in r.emits <==>
                    e == Copy(m, false) && BoundTo(r.server, m.to) == Some(t))
    ensures forall n :: n != m.user && n != m.to ==> Lookup(r.server, n) == Lookup(s, n)
    ensures forall n :: n != m.user ==> BoundTo(r.server, n) == BoundTo(s, n)
    ensures Valid(s) ==> Valid(r.server)
  {
    var adm := RateLimit.IsRateLimited(s.limits, m.user, now);
    if adm.limited then
      Step(s.(limits := adm.limits), [ToCaller(MessageSent(false, None, Some(TooFast)))])
    else
      var s0 := s.(limits := adm.limits);
      assert forall n :: BoundTo(s0, n) == BoundTo(s, n) && Lookup(s0, n) == Lookup(s, n);
      Admit(s0, sid, m, now)
  }

  /** Between two distinct stored users, an admitted message lands as the
      last entry of both windows: unread for the recipient, read for the
      sender, identical otherwise; both `lastSeen`s become `now`, and the
      sender is online on the sending socket. */
  lemma {:induction false} SendMessageStoresBothCopies(s: Server, sid: SocketId, m: Outgoing, now: Millis)
    requires !RateLimit.IsRateLimited(s.limits, m.user, now).limited
    requires m.user != m.to && Lookup(s, m.user).Some? && Lookup(s, m.to).Some?
    ensures var r := SendMessage(s, sid, m, now).server;
            var sent := Lookup(r, m.user).value;
            var got := Lookup(r, m.to).value;
            && sent.chatWindow == Lookup(s, m.user).value.chatWindow + [Copy(m, true)]
            && got.chatWindow == Lookup(s, m.to).value.chatWindow + [Copy(m, false)]
            && Copy(m, false).(read := true) == Copy(m, true)
            && sent.online && sent.socketId == sid && sent.lastSeen == Some(now)
            && got.lastSeen == Some(now)
            && got.online == (Lookup(s, m.to).value.online || BoundTo(s, m.to).Some?)
  {
    var s0 := s.(limits := RateLimit.IsRateLimited(s.limits, m.user, now).limits);
    assert Lookup(s0, m.user) == Lookup(s, m.user) && Lookup(s0, m.to) == Lookup(s, m.to);
    assert BoundTo(s0, m.to) == BoundTo(s, m.to);
  }

  /** Clearing the unread flag on every message `from` sent
      (`chatWindow.$[elem].read = true` where `elem.user == from` and
      `elem.read == false`). */
  function MarkReadFrom(w: seq<Message>, from: UserName): (r: seq<Message>)
    ensures |r| == |w|
    ensures forall i :: 0 <= i < |w| ==> r[i] == (if w[i].user == from then w[i].(read := true) else w[i])
  {
    if |w| == 0 then [] else
      [if w[0].user == from then w[0].(read := true) else w[0]] + MarkReadFrom(w[1..], from)
  }

  /** Marking is idempotent and leaves nothing from `from` unread. */
  lemma MarkReadFromIsIdempotent(w: seq<Message>, from: UserName)
    ensures MarkReadFrom(MarkReadFrom(w, from), from) == MarkReadFrom(w, from)
    ensures forall i :: 0 <= i < |w| && MarkReadFrom(w, from)[i].user == from ==> MarkReadFrom(w, from)[i].read
    ensures forall i :: 0 <= i < |w| ==> MarkReadFrom(w, from)[i].id == w[i].id
  {
  }

  /** The debounce key, `${from}-${to}`, per socket. */
  function DebounceKey(sid: SocketId, from: UserName, to: UserName): (SocketId, string) {
    (sid, from + "-" + to)
  }

  /** `mark-messages-read { from, to }` on socket `sid`: at most once per
      2 s per socket and key. When let through, `to`'s record goes online on
      `sid`, `to` is bound to `sid`, `user-online` is broadcast for `to`, and
      every message from `from` in `to`'s window is marked read. */
  function MarkMessagesRead(s: Server, sid: SocketId, from: UserName, to: UserName, now: Millis): (r: Step)
    ensures var key := DebounceKey(sid, from, to);
            var last := if key in s.markRead then s.markRead[key] else 0;
            && (now - last < RateLimit.MarkReadDebounceMs ==> r == Step(s, []))
            && (now - last >= RateLimit.MarkReadDebounceMs ==>
                  && r.emits == [ToAll(UserOnline(to, None))]
                  && r.server.markRead == s.markRead[key := now]
                  && BoundTo(r.server, to) == Some(sid)
                  && Lookup(r.server, to) ==
                       (if Lookup(s, to).Some?
                        then var rec := Apply(Lookup(s, to).value, GoOnline(now, sid));
                             Some(rec.(chatWindow := MarkReadFrom(rec.chatWindow, from)))
                        else None))
    ensures forall n :: n != to ==> Lookup(r.server, n) == Lookup(s, n) && BoundTo(r.server, n) == BoundTo(s, n)
    ensures r.server == s.(active := r.server.active, store := r.server.store, markRead := r.server.markRead)
    ensures Valid(s) ==> Valid(r.server)
  {
    var g := RateLimit.Gate(s.markRead, DebounceKey(sid, from, to), now, RateLimit.MarkReadDebounceMs);
    if !g.passed then Step(s, [])
    else
      var s1 := Bind(UpdateUser(s.(markRead := g.times), to, GoOnline(now, sid)), to, sid);
      var s2 := match Lookup(s1, to)
                case None => s1
                case Some(rec) => s1.(store := Put(s1.store, to, rec.(chatWindow := MarkReadFrom(rec.chatWindow, from))));
      Step(s2, [ToAll(UserOnline(to, None))])
  }

  /** The debounce key joins the two names with `-`, so two different
      (from, to) pairs can share one debounce entry: a read receipt for one
      conversation holds back the other's for 2 s. */
  lemma DebounceKeysCollide(sid: SocketId, t: Millis)
    requires 0 <= t
    ensures DebounceKey(sid, "a-b", "c") == DebounceKey(sid, "a", "b-c")
    ensures var s := MarkMessagesRead(
              Server([], [], map[], map[], map[], Throttle.Idle, []), sid, "a-b", "c", t + RateLimit.MarkReadDebounceMs).server;
            MarkMessagesRead(s, sid, "a", "b-c", t + RateLimit.MarkReadDebounceMs + 1).emits == []
  {
    var key := DebounceKey(sid, "a-b", "c");
    assert key == DebounceKey(sid, "a", "b-c") by {
      assert "a-b" + "-" + "c" == "a" + "-" + "b-c";
    }
    var s := MarkMessagesRead(
      Server([], [], map[], map[], map[], Throttle.Idle, []), sid, "a-b", "c", t + RateLimit.MarkReadDebounceMs).server;
    assert s.markRead == map[key := t + RateLimit.MarkReadDebounceMs];
  }
}

=== FILE: presence.dfy ===
/** The server's presence state (server.js): the in-memory tables, the user
    store, the events the handlers emit, and the store and registry updates the
    handlers are built from. */
module Presence {
  import opened Base
  import opened Assoc
  import opened Messages
  import Throttle
  import RateLimit

  /** A user's stored record, reduced to what the presence logic reads and
      writes. */
  datatype Record = Record(
    online: bool,
    lastSeen: Option<Millis>,
    socketId: SocketId,
    country: string,
    region: string,
    chatWindow: seq<Message>)

  /** A `findOneAndUpdate` `$set` document: each present field is written. */
  datatype Patch = Patch(
    online: Option<bool>,
    lastSeen: Option<Millis>,
    socketId: Option<SocketId>,
    country: Option<string>,
    region: Option<string>)

  /** `{ online: false, lastSeen: at }`. */
  function GoOffline(at: Millis): Patch {
    Patch(Some(false), Some(at), None, None, None)
  }

  /** `{ socketId, lastSeen: at, online: true }`. */
  function GoOnline(at: Millis, sid: SocketId): Patch {
    Patch(Some(true), Some(at), Some(sid), None, None)
  }

  /** `{ lastSeen: at }`. */
  function Touch(at: Millis): Patch {
    Patch(None, Some(at), None, None, None)
  }

  /** The record with the patch's fields written. */
  function Apply(r: Record, p: Patch): (r': Record)
    ensures r'.chatWindow == r.chatWindow
    ensures r'.online == p.online.GetOr(r.online)
    ensures r'.lastSeen == (if p.lastSeen.Some? then p.lastSeen else r.lastSeen)
    ensures r'.socketId == p.socketId.GetOr(r.socketId)
    ensures r'.country == p.country.GetOr(r.country) && r'.region == p.region.GetOr(r.region)
  {
    Record(
      p.online.GetOr(r.online),
      if p.lastSeen.Some? then p.lastSeen else r.lastSeen,
      p.socketId.GetOr(r.socketId),
      p.country.GetOr(r.country),
      p.region.GetOr(r.region),
      r.chatWindow)
  }

  /** Writing the same fields twice is writing them once, and a patch that
      names no field changes nothing. */
  lemma ApplyIsIdempotent(r: Record, p: Patch)
    ensures Apply(Apply(r, p), p) == Apply(r, p)
    ensures Apply(r, Patch(None, None, None, None, None)) == r
  {
  }

  /** `{ country, region }` of a `user-online` broadcast that carries them. */
  datatype Location = Location(country: string, region: string)

  /** The events the server emits. */
  datatype Event =
    | UserOnline(userName: UserName, location: Option<Location>)
    | UserOffline(userName: UserName, lastSeen: Option<Millis>)
    | OnlineStatus(userName: UserName, online: bool, seen: Millis, error: Option<string>)
    | UserUpdate
    | UserNotFound(userName: UserName)
    | ConnectionError(message: string)
    | UserExist
    | UserAdded(userName: UserName)
    | ConnectionAccepted(userName: UserName)
    | ConnectionRefused(reason: Option<string>)
    | MessageSent(success: bool, sent: Option<Message>, error: Option<string>)
    | ReceiveMessage(incoming: Message)
    | PleaseWait

  /** Where an event goes: every connection (`io.emit`), the connection whose
      handler runs (`socket.emit`), or one socket by id (`io.to(id).emit`).
      `CloseCaller` is `socket.disconnect()`. */
  datatype Emit = ToAll(ev: Event) | ToCaller(ev: Event) | ToSocket(sid: SocketId, ev: Event) | CloseCaller

  /** All process state the presence handlers share. */
  datatype Server = Server(
    active: seq<(UserName, SocketId)>,          // activeUsers
    sessions: seq<(UserName, Millis)>,          // userSessions: last activity
    limits: map<UserName, RateLimit.Window>,    // connectionLimits.rateLimitByIp
    connectTimes: map<Ip, Millis>,              // connectionTimestamps
    markRead: map<(SocketId, string), Millis>,  // each socket's markAsReadDebounce
    updates: Throttle.Throttle,                 // the throttled userUpdate dispatcher
    store: seq<(UserName, Record)>)             // the users collection

  /** The tables are maps: no key twice; the dispatcher is consistent. */
  predicate Valid(s: Server) {
    Unique(s.active) && Unique(s.sessions) && Unique(s.store) && Throttle.Valid(s.updates)
  }

  /** A handler's effect: the next state and what it emitted, in order. */
  datatype Step = Step(server: Server, emits: seq<Emit>)

  /** `User.findOne({ userName })`. */
  function Lookup(s: Server, name: UserName): Option<Record> {
    Get(s.store, name)
  }

  /** `activeUsers.get(name)`. */
  function BoundTo(s: Server, name: UserName): Option<SocketId> {
    Get(s.active, name)
  }

  /** `User.findOneAndUpdate({ userName }, patch)` without upsert: a missing
      user stays missing; nothing else in the store changes. */
  function UpdateUser(s: Server, name: UserName, p: Patch): (r: Server)
    ensures Lookup(r, name) == (if Lookup(s, name).Some? then Some(Apply(Lookup(s, name).value, p)) else None)
    ensures forall n :: n != name ==> Lookup(r, n) == Lookup(s, n)
    ensures r.active == s.active && r.sessions == s.sessions && r.updates == s.updates
    ensures r.limits == s.limits && r.connectTimes == s.connectTimes && r.markRead == s.markRead
    ensures Valid(s) ==> Valid(r)
  {
    match Lookup(s, name)
    case None => s
    case Some(rec) => s.(store := Put(s.store, name, Apply(rec, p)))
  }

  /** `activeUsers.set(name, sid)`: last bind wins. */
  function Bind(s: Server, name: UserName, sid: SocketId): (r: Server)
    ensures BoundTo(r, name) == Some(sid)
    ensures forall n :: n != name ==> BoundTo(r, n) == BoundTo(s, n)
    ensures r == s.(active := r.active)
    ensures Valid(s) ==> Valid(r)
  {
    s.(active := Put(s.active, name, sid))
  }

  /** `activeUsers.delete(name)`. */
  function Unbind(s: Server, name: UserName): (r: Server)
    ensures BoundTo(r, name) == None
    ensures forall n :: n != name ==> BoundTo(r, n) == BoundTo(s, n)
    ensures r == s.(active := r.active)
    ensures Valid(s) ==> Valid(r)
  {
    s.(active := Remove(s.active, name))
  }

  /** `throttledBroadcast.scheduleUserUpdate(name)`. */
  function ScheduleUpdate(s: Server, name: UserName): (r: Server)
    ensures r == s.(updates := r.updates)
    ensures r.updates.pending == s.updates.pending + {name} && r.updates.armed
    ensures Valid(s) ==> Valid(r)
  {
    s.(updates := Throttle.Schedule(s.updates, name))
  }

  /** The dispatcher's 500 ms timer expires (the `setTimeout` callback of
      `createThrottledBroadcast`). */
  function OnUpdateTimer(s: Server): (r: Step)
    requires s.updates.armed
    ensures r.server == s.(updates := Throttle.Idle)
    ensures r.emits == (if s.updates.pending != {} then [ToAll(UserUpdate)] else [])
  {
    var f := Throttle.Fire(s.updates);
    Step(s.(updates := f.next), if f.emitted then [ToAll(UserUpdate)] else [])
  }

  /** The `user-offline` broadcasts among `emits`. */
  function OfflineBroadcasts(emits: seq<Emit>): (r: seq<UserName>)
    ensures |r| <= |emits|
  {
    if |emits| == 0 then []
    else (if emits[0].ToAll? && emits[0].ev.UserOffline? then [emits[0].ev.userName] else [])
         + OfflineBroadcasts(emits[1..])
  }

  /** True when some emit goes to every connection. */
  predicate AnyBroadcast(emits: seq<Emit>) {
    exists i :: 0 <= i < |emits| && emits[i].ToAll?
  }

  /** The offline broadcasts of two emit lists run one after the other. */
  lemma {:induction false} OfflineBroadcastsAppend(a: seq<Emit>, b: seq<Emit>)
    ensures OfflineBroadcasts(a + b) == OfflineBroadcasts(a) + OfflineBroadcasts(b)
  {
    if |a| == 0 {
      assert a + b == b;
    } else {
      assert (a + b)[0] == a[0];
      assert (a + b)[1..] == a[1..] + b;
      OfflineBroadcastsAppend(a[1..], b);
    }
  }
}

=== FILE: ratelimit.dfy ===
/** Admission control (server.js): the per-user sliding-window message limiter
    `isRateLimited` and its periodic sweep, and the last-time gate shared by
    the per-address connection throttle and the per-socket mark-read debounce. */
module RateLimit {
  import opened Base

  const MaxMessages := 10
  const TimeWindowMs := 10000

  /** One user's window: admitted send times and when a throttle warning was
      last logged. */
  datatype Window = Window(messages: seq<Millis>, lastWarned: Millis)

  const Fresh := Window([], 0)

  /** The timestamps still inside the window at `now`, in their order. */
  function Recent(ts: seq<Millis>, now: Millis): (r: seq<Millis>)
    ensures |r| <= |ts|
    ensures forall t :: t in r <==> t in ts && now - t < TimeWindowMs
    ensures forall t :: multiset(r)[t] == if now - t < TimeWindowMs then multiset(ts)[t] else 0
  {
    if |ts| == 0 then []
    else
      var rest := Recent(ts[1..], now);
      assert forall t :: t in ts <==> t == ts[0] || t in ts[1..];
      assert ts == [ts[0]] + ts[1..];
      if now - ts[0] < TimeWindowMs then [ts[0]] + rest else rest
  }

  /** The limiter's verdict and the table after it. `warned` is the
      "Rate limiting messages" log line. */
  datatype Admission = Admission(limits: map<UserName, Window>, limited: bool, warned: bool)

  /** The window stored for `user`, or a fresh one. */
  function WindowOf(limits: map<UserName, Window>, user: UserName): Window {
    if user in limits then limits[user] else Fresh
  }

  /** `isRateLimited(user)`: prunes the user's window to the last 10 s, rejects
      when 10 or more remain, and otherwise records `now`. A rejection still
      stores the pruned window and possibly a new warning time, in place. */
  function IsRateLimited(limits: map<UserName, Window>, user: UserName, now: Millis): (r: Admission)
    ensures r.limited <==> |Recent(WindowOf(limits, user).messages, now)| >= MaxMessages
    ensures !r.limited ==>
              user in r.limits && r.limits[user].messages == Recent(WindowOf(limits, user).messages, now) + [now]
    ensures r.limited ==>
              user in limits && user in r.limits && r.limits[user].messages == Recent(limits[user].messages, now)
    ensures r.warned ==>
              r.limited && now - limits[user].lastWarned > TimeWindowMs && r.limits[user].lastWarned == now
    ensures r.limited && !r.warned ==> r.limits[user].lastWarned == limits[user].lastWarned
    ensures forall u :: u != user ==> (u in r.limits <==> u in limits)
    ensures forall u :: u != user && u in limits ==> r.limits[u] == limits[u]
  {
    var w := WindowOf(limits, user);
    var kept := Recent(w.messages, now);
    if |kept| >= MaxMessages then
      var warn := now - w.lastWarned > TimeWindowMs;
      var w' := Window(kept, if warn then now else w.lastWarned);
      Admission(if user in limits then limits[user := w'] else limits, true, warn)
    else
      Admission(limits[user := Window(kept + [now], w.lastWarned)], false, false)
  }

  /** Every stored window holds at most `MaxMessages` times. */
  predicate Bounded(limits: map<UserName, Window>) {
    forall u :: u in limits ==> |limits[u].messages| <= MaxMessages
  }

  /** The limiter never lets a window grow past its quota. */
  lemma {:induction false} LimiterKeepsBound(limits: map<UserName, Window>, user: UserName, now: Millis)
    requires Bounded(limits)
    ensures Bounded(IsRateLimited(limits, user, now).limits)
  {
    var r := IsRateLimited(limits, user, now);
    forall u | u in r.limits ensures |r.limits[u].messages| <= MaxMessages {
      if u == user {
        assert |Recent(WindowOf(limits, user).messages, now)| <= |WindowOf(limits, user).messages|;
      }
    }
  }

  /** Once a warning is logged, no further warning is logged for the next
      10 s by the window it was logged in. */
  lemma WarnsOncePerWindow(limits: map<UserName, Window>, user: UserName, t1: Millis, t2: Millis)
    requires IsRateLimited(limits, user, t1).warned
    requires t1 <= t2 <= t1 + TimeWindowMs
    ensures !IsRateLimited(IsRateLimited(limits, user, t1).limits, user, t2).warned
  {
  }

  /** Rejected attempts do not consume quota: the table after a rejection,
      seen at the same instant, gives the same verdict. */
  lemma RejectionIsStable(limits: map<UserName, Window>, user: UserName, now: Millis)
    requires IsRateLimited(limits, user, now).limited
    ensures IsRateLimited(IsRateLimited(limits, user, now).limits, user, now).limited
    ensures IsRateLimited(IsRateLimited(limits, user, now).limits, user, now).limits[user].messages ==
            IsRateLimited(limits, user, now).limits[user].messages
  {
    RecentIdempotent(limits[user].messages, now);
  }

  lemma {:induction false} RecentIdempotent(ts: seq<Millis>, now: Millis)
    ensures Recent(Recent(ts, now), now) == Recent(ts, now)
  {
    if |ts| > 0 {
      RecentIdempotent(ts[1..], now);
      if now - ts[0] < TimeWindowMs {
        assert ([ts[0]] + Recent(ts[1..], now))[1..] == Recent(ts[1..], now);
      }
    }
  }

  /** A window whose times are all recent is kept whole. */
  /** Pruning keeps the window's order: a time appended to the window is
      kept at the end exactly when it is recent. */
  lemma {:induction false} RecentSnoc(ts: seq<Millis>, t: Millis, now: Millis)
    ensures Recent([], now) == []
    ensures Recent(ts + [t], now) == Recent(ts, now) + (if now - t < TimeWindowMs then [t] else [])
  {
    if |ts| > 0 {
      assert (ts + [t])[1..] == ts[1..] + [t];
      RecentSnoc(ts[1..], t, now);
    }
  }

  lemma {:induction false} RecentKeepsRecent(ts: seq<Millis>, now: Millis)
    requires forall i :: 0 <= i < |ts| ==> now - ts[i] < TimeWindowMs
    ensures Recent(ts, now) == ts
  {
    if |ts| > 0 {
      RecentKeepsRecent(ts[1..], now);
      assert [ts[0]] + ts[1..] == ts;
    }
  }

  /** Ten admitted messages inside one window make the eleventh attempt a
      rejection that stores nothing new; once the window has slid past the
      first of the ten, the next attempt is admitted. */
  lemma {:induction false} EleventhRejectedUntilWindowSlides(
    limits: map<UserName, Window>, user: UserName, now: Millis, later: Millis)
    requires user in limits && |limits[user].messages| == MaxMessages
    requires var ts := limits[user].messages;
             forall i :: 0 <= i < |ts| ==> now - ts[i] < TimeWindowMs
    requires var ts := limits[user].messages;
             later - ts[0] >= TimeWindowMs && forall i :: 1 <= i < |ts| ==> later - ts[i] < TimeWindowMs
    ensures IsRateLimited(limits, user, now).limited
    ensures IsRateLimited(limits, user, now).limits[user].messages == limits[user].messages
    ensures !IsRateLimited(IsRateLimited(limits, user, now).limits, user, later).limited
  {
    var ts := limits[user].messages;
    RecentKeepsRecent(ts, now);
    RecentKeepsRecent(ts[1..], later);
    assert Recent(ts, later) == ts[1..];
  }

  /** Every stored time is more than a window old (the sweep's test; an empty
      window passes it). */
  predicate AllExpired(ts: seq<Millis>, now: Millis) {
    forall i :: 0 <= i < |ts| ==> now - ts[i] > TimeWindowMs
  }

  /** The 15-minute memory sweep of the limiter table: a window goes when all
      its times are older than the window, and only then. */
  function SweepLimits(limits: map<UserName, Window>, now: Millis): (r: map<UserName, Window>)
    ensures forall u :: u in r <==> u in limits && !AllExpired(limits[u].messages, now)
    ensures forall u :: u in r ==> r[u] == limits[u]
  {
    map u | u in limits && !AllExpired(limits[u].messages, now) :: limits[u]
  }

  /** The sweep never changes an admission decision taken at or after the
      sweep: it only drops windows the limiter would prune to nothing. */
  lemma {:induction false} SweepKeepsDecisions(limits: map<UserName, Window>, sweepAt: Millis, user: UserName, now: Millis)
    requires sweepAt <= now
    ensures IsRateLimited(SweepLimits(limits, sweepAt), user, now).limited ==
            IsRateLimited(limits, user, now).limited
  {
    if user in limits && user !in SweepLimits(limits, sweepAt) {
      var ts := limits[user].messages;
      assert forall t :: t in ts ==> now - t > TimeWindowMs;
      assert Recent(ts, now) == [] by {
        if Recent(ts, now) != [] {
          assert Recent(ts, now)[0] in Recent(ts, now);
        }
      }
    }
  }

  /** A window the limiter has just written survives a sweep at the same
      instant. */
  lemma AdmittedWindowSurvivesSweep(limits: map<UserName, Window>, user: UserName, now: Millis)
    requires !IsRateLimited(limits, user, now).limited
    ensures user in SweepLimits(IsRateLimited(limits, user, now).limits, now)
  {
    var ms := IsRateLimited(limits, user, now).limits[user].messages;
    assert ms[|ms| - 1] == now;
  }

  /** The result of a last-time gate: the updated table and whether the
      event got through. */
  datatype Gated<K> = Gated(times: map<K, Millis>, passed: bool)

  /** A "not more often than every `gap` ms" gate keyed by `k`, with a missing
      entry read as time 0: the event passes when `now - last >= gap`, and
      passing records `now`. This is the connection throttle per client
      address (1 s) and the mark-read debounce per socket and sender pair (2 s). */
  function Gate<K>(times: map<K, Millis>, k: K, now: Millis, gap: Millis): (r: Gated<K>)
    ensures r.passed <==> now - (if k in times then times[k] else 0) >= gap
    ensures r.passed ==> r.times == times[k := now]
    ensures !r.passed ==> r.times == times
  {
    var last := if k in times then times[k] else 0;
    if now - last < gap then Gated(times, false) else Gated(times[k := now], true)
  }

  /** After an event passes a gate, the same key is held back until `gap` has
      elapsed, and let through from then on. */
  lemma GateHoldsForGap<K>(times: map<K, Millis>, k: K, t1: Millis, t2: Millis, gap: Millis)
    requires Gate(times, k, t1, gap).passed
    ensures Gate(Gate(times, k, t1, gap).times, k, t2, gap).passed <==> t2 - t1 >= gap
  {
  }

  const ConnectionThrottleMs := 1000
  const MarkReadDebounceMs := 2000
  const ConnectionMemoryMs := 30 * 60 * 1000

  /** The 15-minute sweep of connection times: an address is forgotten once
      its last admitted connection is more than 30 minutes old. */
  function SweepConnectTimes(times: map<Ip, Millis>, now: Millis): (r: map<Ip, Millis>)
    ensures forall ip :: ip in r <==> ip in times && now - times[ip] <= ConnectionMemoryMs
    ensures forall ip :: ip in r ==> r[ip] == times[ip]
  {
    map ip | ip in times && now - times[ip] <= ConnectionMemoryMs :: times[ip]
  }

  /** Forgetting old connection times never lets a connection through that
      the throttle would hold back. */
  lemma SweepConnectTimesKeepsThrottle(times: map<Ip, Millis>, sweepAt: Millis, ip: Ip, now: Millis)
    requires sweepAt <= now
    requires 0 <= sweepAt - ConnectionMemoryMs
    ensures Gate(SweepConnectTimes(times, sweepAt), ip, now, ConnectionThrottleMs).passed ==
            Gate(times, ip, now, ConnectionThrottleMs).passed
  {
  }
}

=== FILE: registration.dfy ===
/** The registration payload a client sends with `connected`, and the checks
    the server applies to it before creating or reviving a user
    (server.js, the `connected` handler). */
module Registration {
  import opened Base
  import opened Text

  /** The sanitised form data: name, numeric age, gender, location and the
      client's own `online` flag and timestamp. */
  datatype Registration = Registration(
    userName: string,
    age: NumberValue,
    gender: string,
    country: string,
    region: string,
    online: bool,
    lastSeen: int)

  const MinAge := 18

  const InvalidFormData := "Invalid form data"
  const MissingFields := "Missing required fields"
  const InvalidAge := "Invalid age. Must be 18 or older."
  const InvalidUserName := "Invalid username format. Use only letters, numbers, and underscores."

  /** One character of `/^[a-zA-Z0-9_]+$/`. */
  predicate IsWordChar(c: char) {
    ('a' <= c <= 'z') || ('A' <= c <= 'Z') || ('0' <= c <= '9') || c == '_'
  }

  /** `/^[a-zA-Z0-9_]+$/.test(s)`. */
  predicate IsWordString(s: string) {
    |s| > 0 && forall i :: 0 <= i < |s| ==> IsWordChar(s[i])
  }

  /** The `connectionError` message the server answers a registration with,
      or `None` when the registration is admitted. */
  function CheckRegistration(p: Registration): (err: Option<string>)
    ensures err.None? <==>
      p.userName != "" && p.gender != "" && p.age.Finite? && p.age.n >= MinAge && IsWordString(p.userName)
    ensures p.userName == "" ==> err == Some(InvalidFormData)
    ensures p.userName != "" && (p.gender == "" || !p.age.Truthy()) ==> err == Some(MissingFields)
    ensures p.userName != "" && p.gender != "" && p.age.Truthy() && p.age.n < MinAge ==> err == Some(InvalidAge)
    ensures p.gender != "" && p.age.Finite? && p.age.n >= MinAge && p.userName != "" && !IsWordString(p.userName) ==>
              err == Some(InvalidUserName)
  {
    if p.userName == "" then Some(InvalidFormData)
    else if !p.age.Truthy() || p.gender == "" then Some(MissingFields)
    else if p.age.NaN? || p.age.n < MinAge then Some(InvalidAge)
    else if !IsWordString(p.userName) then Some(InvalidUserName)
    else None
  }
}

=== FILE: roster.dfy ===
/** The chat client's roster (app/chat/page.js): reconciling a fetched user
    list with the one on screen, appending incoming messages without
    duplicates, local read marking, unread counts and the conversation view. */
module Roster {
  import opened Base
  import opened Messages

  /** A user as the client lists them. */
  datatype Peer = Peer(
    userName: UserName,
    online: bool,
    lastSeen: Option<Millis>,
    chatWindow: seq<Message>,
    gender: string,
    country: string,
    region: string)

  /** `prevUserMap.get(name)`: the map is filled in list order, so the last
      entry with that name wins. */
  function Previous(prev: seq<Peer>, name: UserName): (r: Option<Peer>)
    ensures r.None? <==> forall i :: 0 <= i < |prev| ==> prev[i].userName != name
    ensures r.Some? ==>
              exists i :: 0 <= i < |prev| && prev[i] == r.value && r.value.userName == name &&
                forall j :: i < j < |prev| ==> prev[j].userName != name
  {
    if |prev| == 0 then None
    else if prev[|prev| - 1].userName == name then Some(prev[|prev| - 1])
    else
      var init := prev[..|prev| - 1];
      var r := Previous(init, name);
      assert forall i :: 0 <= i < |prev| - 1 ==> init[i] == prev[i];
      assert r.Some? ==> exists i :: 0 <= i < |prev| && prev[i] == r.value && r.value.userName == name &&
                                    forall j :: i < j < |prev| ==> prev[j].userName != name by {
        if r.Some? {
          var i :| 0 <= i < |init| && init[i] == r.value && r.value.userName == name &&
                   forall j :: i < j < |init| ==> init[j].userName != name;
          assert prev[i] == r.value;
        }
      }
      r
  }

  /** The messages of `fetched` whose id `existing` does not hold, in order. */
  function NewMessages(existing: seq<Message>, fetched: seq<Message>): (r: seq<Message>)
    ensures forall m :: m in r <==> m in fetched && !HasId(existing, m.id)
    ensures |r| <= |fetched|
  {
    if |fetched| == 0 then []
    else
      var rest := NewMessages(existing, fetched[1..]);
      assert forall m :: m in fetched <==> m == fetched[0] || m in fetched[1..];
      if HasId(existing, fetched[0].id) then rest else [fetched[0]] + rest
  }

  /** The new messages keep the fetched order: one more fetched message
      lands at the end exactly when its id is new. */
  lemma {:induction false} NewMessagesSnoc(existing: seq<Message>, fetched: seq<Message>, m: Message)
    ensures NewMessages(existing, []) == []
    ensures NewMessages(existing, fetched + [m]) ==
              NewMessages(existing, fetched) + (if HasId(existing, m.id) then [] else [m])
  {
    if |fetched| > 0 {
      assert (fetched + [m])[1..] == fetched[1..] + [m];
      NewMessagesSnoc(existing, fetched[1..], m);
    }
  }

  /** The chat-window union: the existing messages in order, then the
      fetched ones whose id is new. */
  function UnionById(existing: seq<Message>, fetched: seq<Message>): (r: seq<Message>)
    ensures |existing| <= |r| && r[..|existing|] == existing
    ensures forall m :: m in r[|existing|..] <==> m in fetched && !HasId(existing, m.id)
    ensures forall m :: m in fetched ==> HasId(r, m.id)
  {
    var r := existing + NewMessages(existing, fetched);
    assert r[|existing|..] == NewMessages(existing, fetched);
    forall m | m in fetched ensures HasId(r, m.id) {
      if HasId(existing, m.id) {
        var i :| 0 <= i < |existing| && existing[i].id == m.id;
        assert r[i] == existing[i];
      } else {
        var k :| 0 <= k < |NewMessages(existing, fetched)| && NewMessages(existing, fetched)[k] == m;
        assert r[|existing| + k] == m;
      }
    }
    r
  }

  /** Messages a unique-id window keeps unique when merged with a unique-id
      fetch. */
  lemma {:induction false} NewMessagesKeepIdsUnique(existing: seq<Message>, fetched: seq<Message>)
    requires IdsUnique(fetched)
    ensures IdsUnique(NewMessages(existing, fetched))
    ensures forall m :: m in NewMessages(existing, fetched) ==> !HasId(existing, m.id)
  {
    if |fetched| > 0 {
      assert IdsUnique(fetched[1..]) by {
        forall i, j | 0 <= i < j < |fetched[1..]| ensures fetched[1..][i].id != fetched[1..][j].id {
          assert fetched[1..][i] == fetched[i + 1] && fetched[1..][j] == fetched[j + 1];
        }
      }
      NewMessagesKeepIdsUnique(existing, fetched[1..]);
      var rest := NewMessages(existing, fetched[1..]);
      forall m | m in rest ensures m.id != fetched[0].id {
        var k :| 1 <= k < |fetched| && fetched[k] == m by {
          assert m in fetched[1..];
          var k' :| 0 <= k' < |fetched[1..]| && fetched[1..][k'] == m;
          assert fetched[k' + 1] == m;
        }
      }
    }
  }

  /** The union of two unique-id windows has unique ids. */
  lemma UnionKeepsIdsUnique(existing: seq<Message>, fetched: seq<Message>)
    requires IdsUnique(existing) && IdsUnique(fetched)
    ensures IdsUnique(UnionById(existing, fetched))
  {
    NewMessagesKeepIdsUnique(existing, fetched);
    var n := NewMessages(existing, fetched);
    var r := existing + n;
    forall i, j | 0 <= i < j < |r| ensures r[i].id != r[j].id {
      if j >= |existing| {
        assert r[j] == n[j - |existing|] && r[j] in n;
        if i < |existing| {
          assert r[i] == existing[i];
        } else {
          assert r[i] == n[i - |existing|];
        }
      }
    }
  }

  /** The merge's verdict for one fetched user: the entry shown, and whether
      `check-user-online` was emitted for them. */
  datatype Merged = Merged(peer: Peer, check: bool)

  /** The user is offline in the fetch but was online on screen. */
  predicate Demoted(existing: Peer, fetched: Peer) {
    existing.online && !fetched.online
  }

  /** The `setOnline` updater's rule for one fetched user. */
  function MergeOne(prev: seq<Peer>, fetched: Peer): (r: Merged)
    ensures r.peer.userName == fetched.userName
    ensures r.check <==> Previous(prev, fetched.userName).Some? && Demoted(Previous(prev, fetched.userName).value, fetched)
    ensures Previous(prev, fetched.userName).None? ==> r.peer == fetched
    ensures Previous(prev, fetched.userName).Some? ==>
              var e := Previous(prev, fetched.userName).value;
              && (!e.online && !fetched.online ==>
                    !r.peer.online &&
                    r.peer.lastSeen.GetOr(0) == Max(e.lastSeen.GetOr(0), fetched.lastSeen.GetOr(0)))
              && (Demoted(e, fetched) ==> r.peer == fetched.(online := true, lastSeen := e.lastSeen))
              && (fetched.online ==> r.peer.online)
              && (!e.online && !fetched.online && e.lastSeen.GetOr(0) > fetched.lastSeen.GetOr(0) ==>
                    r.peer == fetched.(lastSeen := e.lastSeen))
              && (!Demoted(e, fetched) && |e.chatWindow| > 0 &&
                  (e.online || fetched.online || e.lastSeen.GetOr(0) <= fetched.lastSeen.GetOr(0)) ==>
                    r.peer == fetched.(chatWindow := UnionById(e.chatWindow, fetched.chatWindow)))
              && (!Demoted(e, fetched) && |e.chatWindow| == 0 &&
                  (e.online || fetched.online || e.lastSeen.GetOr(0) <= fetched.lastSeen.GetOr(0)) ==>
                    r.peer == fetched)
  {
    match Previous(prev, fetched.userName)
    case None => Merged(fetched, false)
    case Some(e) =>
      if !fetched.online && !e.online && e.lastSeen.GetOr(0) > fetched.lastSeen.GetOr(0) then
        Merged(fetched.(lastSeen := e.lastSeen), false)
      else if e.online && !fetched.online then
        Merged(fetched.(online := true, lastSeen := e.lastSeen), true)
      else if |e.chatWindow| > 0 then
        if |fetched.chatWindow| == 0 then Merged(fetched.(chatWindow := e.chatWindow), false)
        else Merged(fetched.(chatWindow := e.chatWindow + NewMessages(e.chatWindow, fetched.chatWindow)), false)
      else Merged(fetched, false)
  }

  function Max(a: int, b: int): int {
    if a < b then b else a
  }

  /** The merge's result: the new roster and the names `check-user-online`
      was emitted for, in order. */
  datatype Merge = Merge(users: seq<Peer>, checks: seq<UserName>)

  /** `setOnline(prevUsers => initializedUsers.map(...))`: one entry per
      fetched user, in fetched order. */
  function MergeRoster(prev: seq<Peer>, fetched: seq<Peer>): (r: Merge)
    ensures |r.users| == |fetched|
    ensures forall i :: 0 <= i < |fetched| ==> r.users[i] == MergeOne(prev, fetched[i]).peer
    ensures forall i :: 0 <= i < |fetched| ==> r.users[i].userName == fetched[i].userName
    ensures forall n :: n in r.checks <==>
              exists i :: 0 <= i < |fetched| && fetched[i].userName == n && MergeOne(prev, fetched[i]).check
    ensures |r.checks| <= |fetched|
  {
    if |fetched| == 0 then Merge([], [])
    else
      var one := MergeOne(prev, fetched[0]);
      var rest := MergeRoster(prev, fetched[1..]);
      assert forall i :: 0 < i < |fetched| ==> fetched[i] == fetched[1..][i - 1];
      Merge([one.peer] + rest.users, (if one.check then [fetched[0].userName] else []) + rest.checks)
  }

  /** Fetched order, once per entry: a user appended to the fetch adds one
      entry at the end and, when demoted, one check at the end. */
  lemma {:induction false} MergeRosterSnoc(prev: seq<Peer>, fetched: seq<Peer>, f: Peer)
    ensures MergeRoster(prev, []) == Merge([], [])
    ensures MergeRoster(prev, fetched + [f]) ==
              Merge(MergeRoster(prev, fetched).users + [MergeOne(prev, f).peer],
                    MergeRoster(prev, fetched).checks + (if MergeOne(prev, f).check then [f.userName] else []))
  {
    if |fetched| > 0 {
      var one := MergeOne(prev, fetched[0]);
      var h := if one.check then [fetched[0].userName] else [];
      var t := if MergeOne(prev, f).check then [f.userName] else [];
      assert (fetched + [f])[0] == fetched[0];
      assert (fetched + [f])[1..] == fetched[1..] + [f];
      MergeRosterSnoc(prev, fetched[1..], f);
      var rest := MergeRoster(prev, fetched[1..]);
      assert [one.peer] + (rest.users + [MergeOne(prev, f).peer]) == ([one.peer] + rest.users) + [MergeOne(prev, f).peer];
      assert h + (rest.checks + t) == (h + rest.checks) + t;
    }
  }

  /** A user on screen as online whom the fetch reports offline stays online,
      keeps the on-screen `lastSeen`, and is sent to the server for
      verification; one absent from the screen passes through as fetched. */
  lemma MergeKeepsLocallyOnline(prev: seq<Peer>, fetched: seq<Peer>, i: nat)
    requires i < |fetched|
    ensures var e := Previous(prev, fetched[i].userName);
            && (e.Some? && Demoted(e.value, fetched[i]) ==>
                  MergeRoster(prev, fetched).users[i].online &&
                  MergeRoster(prev, fetched).users[i].lastSeen == e.value.lastSeen &&
                  fetched[i].userName in MergeRoster(prev, fetched).checks)
            && (e.None? ==> MergeRoster(prev, fetched).users[i] == fetched[i])
  {
  }

  /** Merging with the same fetch twice adds nothing the first merge did not:
      the chat windows of a merge are stable. */
  lemma {:induction false} UnionIsIdempotent(existing: seq<Message>, fetched: seq<Message>)
    ensures UnionById(UnionById(existing, fetched), fetched) == UnionById(existing, fetched)
  {
    var u := UnionById(existing, fetched);
    NoNewMessages(u, fetched);
  }

  /** When every fetched id is already present, nothing is appended. */
  lemma {:induction false} NoNewMessages(existing: seq<Message>, fetched: seq<Message>)
    requires forall m :: m in fetched ==> HasId(existing, m.id)
    ensures NewMessages(existing, fetched) == []
  {
    if |fetched| > 0 {
      assert fetched[0] in fetched;
      NoNewMessages(existing, fetched[1..]);
    }
  }

  /** When both copies are offline and the one on screen was seen later, the
      merge keeps that `lastSeen` and returns before the chat-window merge:
      the window shown is the fetched one, even when messages on screen are
      missing from it. */
  lemma OfflineMergeTakesFetchedWindow(prev: seq<Peer>, fetched: Peer)
    requires Previous(prev, fetched.userName).Some?
    requires var e := Previous(prev, fetched.userName).value;
             !e.online && !fetched.online && e.lastSeen.GetOr(0) > fetched.lastSeen.GetOr(0)
    ensures MergeOne(prev, fetched).peer ==
              fetched.(lastSeen := Previous(prev, fetched.userName).value.lastSeen)
  {
  }

  /** `list.findIndex(u => u.userName === name)`: the first match. */
  function FindPeer(users: seq<Peer>, name: UserName): (r: Option<nat>)
    ensures r.Some? ==> r.value < |users| && users[r.value].userName == name &&
                        forall j :: 0 <= j < r.value ==> users[j].userName != name
    ensures r.None? ==> forall j :: 0 <= j < |users| ==> users[j].userName != name
  {
    if |users| == 0 then None
    else if users[0].userName == name then Some(0)
    else match FindPeer(users[1..], name)
      case None => None
      case Some(k) => Some(k + 1)
  }

  /** `receive-message` for the signed-in user `me`: a message addressed to
      someone else is ignored; otherwise it is appended to the first listed
      peer named as its sender, unless that window already holds its id. */
  function ReceiveMessage(me: UserName, users: seq<Peer>, msg: Message): (r: seq<Peer>)
    ensures msg.to != me ==> r == users
    ensures |r| == |users|
    ensures forall j :: 0 <= j < |users| && j != FindPeer(users, msg.user).GetOr(|users|) ==> r[j] == users[j]
    ensures msg.to == me && FindPeer(users, msg.user).Some? ==>
              var k := FindPeer(users, msg.user).value;
              r[k] == users[k].(chatWindow := if HasId(users[k].chatWindow, msg.id) then users[k].chatWindow
                                              else users[k].chatWindow + [msg])
  {
    if msg.to != me then users
    else match FindPeer(users, msg.user)
      case None => users
      case Some(k) =>
        var w := users[k].chatWindow;
        if HasId(w, msg.id) then users else users[k := users[k].(chatWindow := w + [msg])]
  }

  /** Receiving keeps every window's ids unique, and a second delivery of
      the same message changes nothing. */
  lemma ReceiveKeepsIdsUnique(me: UserName, users: seq<Peer>, msg: Message)
    requires forall j :: 0 <= j < |users| ==> IdsUnique(users[j].chatWindow)
    ensures var r := ReceiveMessage(me, users, msg);
            (forall j :: 0 <= j < |r| ==> IdsUnique(r[j].chatWindow)) &&
            ReceiveMessage(me, r, msg) == r
  {
    var r := ReceiveMessage(me, users, msg);
    if msg.to == me && FindPeer(users, msg.user).Some? {
      var k := FindPeer(users, msg.user).value;
      var w := users[k].chatWindow;
      assert HasId(r[k].chatWindow, msg.id) by {
        if !HasId(w, msg.id) {
          assert r[k].chatWindow[|w|] == msg;
        }
      }
      assert FindPeer(r, msg.user) == Some(k) by {
        assert forall j :: 0 <= j < |r| ==> r[j].userName == users[j].userName;
        FindPeerSameNames(users, r, msg.user);
      }
    }
  }

  /** `FindPeer` only looks at names. */
  lemma {:induction false} FindPeerSameNames(a: seq<Peer>, b: seq<Peer>, name: UserName)
    requires |a| == |b| && forall j :: 0 <= j < |a| ==> a[j].userName == b[j].userName
    ensures FindPeer(a, name) == FindPeer(b, name)
  {
    if |a| > 0 {
      FindPeerSameNames(a[1..], b[1..], name);
    }
  }

  /** `isMessageFromMe`. */
  predicate FromMe(me: UserName, m: Message) {
    m.user == me
  }

  /** A message that counts as unread: not mine, and not yet read. */
  predicate Unread(me: UserName, m: Message) {
    !FromMe(me, m) && !m.read
  }

  /** `chatWindow.filter(msg => !isMessageFromMe(msg) && !msg.read)`. */
  function UnreadMessages(me: UserName, w: seq<Message>): (r: seq<Message>)
    ensures forall m :: m in r <==> m in w && Unread(me, m)
    ensures |r| <= |w|
  {
    if |w| == 0 then []
    else
      var rest := UnreadMessages(me, w[1..]);
      assert forall m :: m in w <==> m == w[0] || m in w[1..];
      (if Unread(me, w[0]) then [w[0]] else []) + rest
  }

  /** `getUnreadCount(user)`. */
  function UnreadCount(me: UserName, p: Peer): (r: nat)
    ensures r == 0 <==> forall i :: 0 <= i < |p.chatWindow| ==> !Unread(me, p.chatWindow[i])
    ensures r <= |p.chatWindow|
  {
    var u := UnreadMessages(me, p.chatWindow);
    assert |u| > 0 ==> u[0] in u;
    |u|
  }

  /** `getUnreadMessageInfo(user)`: the count and the latest unread message. */
  datatype UnreadInfo = UnreadInfo(count: nat, latest: Option<Message>)

  function GetUnreadInfo(me: UserName, p: Peer): (r: UnreadInfo)
    ensures r.count == UnreadCount(me, p)
    ensures r.latest.None? <==> r.count == 0
  {
    var u := UnreadMessages(me, p.chatWindow);
    UnreadInfo(|u|, if |u| > 0 then Some(u[|u| - 1]) else None)
  }

  /** The last unread message in list order, found from the end: the
      independent reading of "latest". */
  function LastUnread(me: UserName, w: seq<Message>): (r: Option<Message>)
    ensures r.None? <==> forall i :: 0 <= i < |w| ==> !Unread(me, w[i])
    ensures r.Some? ==> exists i :: 0 <= i < |w| && w[i] == r.value && Unread(me, w[i]) &&
                          forall j :: i < j < |w| ==> !Unread(me, w[j])
  {
    if |w| == 0 then None
    else if Unread(me, w[|w| - 1]) then Some(w[|w| - 1])
    else
      var r := LastUnread(me, w[..|w| - 1]);
      assert forall i :: 0 <= i < |w| - 1 ==> w[..|w| - 1][i] == w[i];
      r
  }

  /** The latest unread message reported is the last unread one in the
      window, and there is none exactly when the count is zero. */
  lemma {:induction false} LatestIsLastUnread(me: UserName, p: Peer)
    ensures GetUnreadInfo(me, p).latest == LastUnread(me, p.chatWindow)
  {
    UnreadMessagesSnoc(me, p.chatWindow);
  }

  /** Filtering from the front and looking at the end agree. */
  lemma {:induction false} UnreadMessagesSnoc(me: UserName, w: seq<Message>)
    ensures var u := UnreadMessages(me, w);
            (if |u| > 0 then Some(u[|u| - 1]) else None) == LastUnread(me, w)
    decreases |w|
  {
    if |w| > 0 {
      var front := w[..|w| - 1];
      var x := w[|w| - 1];
      UnreadMessagesAppend(me, front, x);
      assert w == front + [x];
      UnreadMessagesSnoc(me, front);
    }
  }

  lemma {:induction false} UnreadMessagesAppend(me: UserName, w: seq<Message>, x: Message)
    ensures UnreadMessages(me, w + [x]) == UnreadMessages(me, w) + (if Unread(me, x) then [x] else [])
    decreases |w|
  {
    if |w| == 0 {
      assert w + [x] == [x];
      assert [x][1..] == [];
    } else {
      assert (w + [x])[0] == w[0];
      assert (w + [x])[1..] == w[1..] + [x];
      UnreadMessagesAppend(me, w[1..], x);
    }
  }

  /** The delayed local update after `markMessagesAsRead(user)`: in the first
      listed peer named `from`, messages from `from` to `me` become read. */
  function MarkReadLocally(me: UserName, users: seq<Peer>, from: UserName): (r: seq<Peer>)
    ensures |r| == |users|
    ensures forall j :: 0 <= j < |users| ==> r[j].userName == users[j].userName && |r[j].chatWindow| == |users[j].chatWindow|
    ensures forall j :: 0 <= j < |users| && j != FindPeer(users, from).GetOr(|users|) ==> r[j] == users[j]
    ensures FindPeer(users, from).Some? ==>
              var k := FindPeer(users, from).value;
              forall i :: 0 <= i < |users[k].chatWindow| ==>
                var m := users[k].chatWindow[i];
                r[k].chatWindow[i] == (if m.user == from && m.to == me then m.(read := true) else m)
  {
    match FindPeer(users, from)
    case None => users
    case Some(k) =>
      users[k := users[k].(chatWindow := ReadWhere(users[k].chatWindow, (m: Message) => m.user == from && m.to == me))]
  }

  /** Setting `read` on every message that satisfies `p`. */
  function ReadWhere(w: seq<Message>, p: Message -> bool): (r: seq<Message>)
    ensures |r| == |w|
    ensures forall i :: 0 <= i < |w| ==> r[i] == (if p(w[i]) then w[i].(read := true) else w[i])
  {
    seq(|w|, i requires 0 <= i < |w| => if p(w[i]) then w[i].(read := true) else w[i])
  }

  /** Read marking touches nothing but the flag: every selected message ends
      read, ids, senders and recipients stay put, the others are unchanged,
      and marking again changes nothing. */
  lemma ReadWhereMarksSelected(w: seq<Message>, p: Message -> bool)
    requires forall m: Message :: p(m) == p(m.(read := true))
    ensures var r := ReadWhere(w, p);
            && (forall i :: 0 <= i < |w| ==> r[i].id == w[i].id && r[i].user == w[i].user && r[i].to == w[i].to)
            && (forall i :: 0 <= i < |w| && p(w[i]) ==> r[i].read)
            && (forall i :: 0 <= i < |w| && !p(w[i]) ==> r[i] == w[i])
            && ReadWhere(r, p) == r
  {
    var r := ReadWhere(w, p);
    assert forall i :: 0 <= i < |w| ==> p(r[i]) == p(w[i]);
  }

  /** Selecting a peer marks every message in its window not sent by me
      read. */
  function MarkReadOnSelect(me: UserName, users: seq<Peer>, selected: UserName): (r: seq<Peer>)
    ensures |r| == |users|
    ensures forall j :: 0 <= j < |users| && j != FindPeer(users, selected).GetOr(|users|) ==> r[j] == users[j]
    ensures FindPeer(users, selected).Some? ==>
              var k := FindPeer(users, selected).value;
              var w := users[k].chatWindow;
              && r[k].userName == selected && UnreadCount(me, r[k]) == 0
              && r[k] == users[k].(chatWindow := r[k].chatWindow)
              && |r[k].chatWindow| == |w|
              && forall i :: 0 <= i < |w| ==>
                   r[k].chatWindow[i] == (if FromMe(me, w[i]) then w[i] else w[i].(read := true))
  {
    match FindPeer(users, selected)
    case None => users
    case Some(k) =>
      var w := ReadWhere(users[k].chatWindow, (m: Message) => !FromMe(me, m));
      users[k := users[k].(chatWindow := w)]
  }

  /** Receiving a new message from someone else raises that peer's unread
      count by one; the local mark-read of that sender brings the unread
      messages from them back to none. */
  lemma ReceiveThenMarkRead(me: UserName, users: seq<Peer>, msg: Message)
    requires msg.to == me && msg.user != me && !msg.read
    requires FindPeer(users, msg.user).Some?
    requires !HasId(users[FindPeer(users, msg.user).value].chatWindow, msg.id)
    ensures var k := FindPeer(users, msg.user).value;
            var r := ReceiveMessage(me, users, msg);
            UnreadCount(me, r[k]) == UnreadCount(me, users[k]) + 1 &&
            forall i :: 0 <= i < |r[k].chatWindow| ==>
              var m := MarkReadLocally(me, r, msg.user)[k].chatWindow[i];
              m.user == msg.user && m.to == me ==> m.read
  {
    var k := FindPeer(users, msg.user).value;
    var r := ReceiveMessage(me, users, msg);
    assert r[k].chatWindow == users[k].chatWindow + [msg];
    UnreadMessagesAppend(me, users[k].chatWindow, msg);
    assert forall j :: 0 <= j < |r| ==> r[j].userName == users[j].userName;
    FindPeerSameNames(users, r, msg.user);
    var marked := MarkReadLocally(me, r, msg.user);
    assert forall i :: 0 <= i < |r[k].chatWindow| ==>
      var m := r[k].chatWindow[i];
      marked[k].chatWindow[i] == (if m.user == msg.user && m.to == me then m.(read := true) else m);
  }

  /** `getConversation()`: the selected peer's messages between me and them. */
  predicate Between(me: UserName, other: UserName, m: Message) {
    (m.user == me && m.to == other) || (m.user == other && m.to == me)
  }

  function Conversation(me: UserName, selected: Peer): (r: seq<Message>)
    ensures forall m :: m in r <==> m in selected.chatWindow && Between(me, selected.userName, m)
    ensures |r| <= |selected.chatWindow|
  {
    Keep(selected.chatWindow, (m: Message) => Between(me, selected.userName, m))
  }

  /** `w.filter(p)`. */
  function Keep(w: seq<Message>, p: Message -> bool): (r: seq<Message>)
    ensures forall m :: m in r <==> m in w && p(m)
    ensures |r| <= |w|
  {
    if |w| == 0 then []
    else
      assert forall m :: m in w <==> m == w[0] || m in w[1..];
      (if p(w[0]) then [w[0]] else []) + Keep(w[1..], p)
  }

  /** `filter` keeps the window's order: one more message lands at the end
      exactly when it passes. */
  lemma {:induction false} KeepSnoc(w: seq<Message>, p: Message -> bool, x: Message)
    ensures Keep([], p) == []
    ensures Keep(w + [x], p) == Keep(w, p) + (if p(x) then [x] else [])
  {
    if |w| > 0 {
      var h := if p(w[0]) then [w[0]] else [];
      assert (w + [x])[0] == w[0];
      assert (w + [x])[1..] == w[1..] + [x];
      KeepSnoc(w[1..], p, x);
      assert h + (Keep(w[1..], p) + (if p(x) then [x] else [])) ==
             (h + Keep(w[1..], p)) + (if p(x) then [x] else []);
    }
  }

  /** The conversation shows the exchange in the order of the window: a
      message I receive from the selected peer, or one I send them, is shown
      last when it arrives last; a message to a third party never shows. */
  lemma ConversationSnoc(me: UserName, selected: Peer, m: Message)
    ensures Conversation(me, selected.(chatWindow := selected.chatWindow + [m])) ==
              Conversation(me, selected) + (if Between(me, selected.userName, m) then [m] else [])
  {
    KeepSnoc(selected.chatWindow, (x: Message) => Between(me, selected.userName, x), m);
  }
}

=== FILE: scenarios.dfy ===
/** Presence across several events: a dropped connection that heals within
    the grace period, and one that does not. */
module Scenarios {
  import opened Base
  import opened Assoc
  import opened Presence
  import Binding
  import Disconnect
  import Verify

  /** A transport drop followed by a heartbeat from a new socket before the
      grace check runs: the check finds the name bound elsewhere and does
      nothing, so no `user-offline` is ever broadcast. */
  lemma {:induction false} ReconnectWithinGraceStaysOnline(
    s: Server, u: UserName, gone: SocketId, back: SocketId, t: Millis, beatAt: Millis, checkAt: Millis)
    requires Valid(s) && u != "" && gone != back
    requires LastKeyWith(s.active, gone) == Some(u)
    ensures var closed := Disconnect.OnDisconnect(s, gone, "transport close", t);
            && closed.step == Step(s, [])
            && closed.grace == Some(Disconnect.GraceTimer(u, gone, t + Disconnect.GraceMs))
            && var s1 := Binding.Heartbeat(s, back, Binding.Beat(u, 0), false, beatAt).server;
               Disconnect.GraceExpiry(s1, closed.grace.value, checkAt) == Step(s1, [])
  {
    var s1 := Binding.Heartbeat(s, back, Binding.Beat(u, 0), false, beatAt).server;
    assert BoundTo(s1, u) == Some(back);
  }

  /** A transport drop with no sign of life: the user was last active over a
      minute before the grace check, so the check takes them offline with a
      single `user-offline`, and running the same check again changes
      nothing. */
  lemma {:induction false} SilentDropGoesOfflineOnce(s: Server, u: UserName, sid: SocketId, t: Millis)
    requires Valid(s) && u != "" && LastKeyWith(s.active, sid) == Some(u)
    requires Lookup(s, u).Some?
    requires t + Disconnect.GraceMs - Get(s.sessions, u).GetOr(0) >= Disconnect.RecentActivityMs
    ensures var timer := Disconnect.OnDisconnect(s, sid, "ping timeout", t).grace.value;
            var r := Disconnect.GraceExpiry(s, timer, timer.due);
            && OfflineBroadcasts(r.emits) == [u]
            && !Lookup(r.server, u).value.online
            && BoundTo(r.server, u) == None
            && Disconnect.GraceExpiry(r.server, timer, timer.due) == Step(r.server, [])
  {
    var i :| 0 <= i < |s.active| && s.active[i] == (u, sid);
    GetAt(s.active, i);
    var timer := Disconnect.GraceTimer(u, sid, t + Disconnect.GraceMs);
    var r := Disconnect.GraceExpiry(s, timer, timer.due);
    assert r == Disconnect.GoneOffline(s, u, timer.due);
    assert OfflineBroadcasts(r.emits) == [u];
  }

  /** A transport drop within a minute of the user's last recorded activity:
      the grace check finds the session recent and does nothing, so the user
      stays online and bound to the dead socket. */
  lemma {:induction false} RecentlyActiveDropStaysOnline(s: Server, u: UserName, sid: SocketId, t: Millis)
    requires u != "" && LastKeyWith(s.active, sid) == Some(u)
    requires Get(s.sessions, u).Some? && t + Disconnect.GraceMs - Get(s.sessions, u).value < Disconnect.RecentActivityMs
    ensures var timer := Disconnect.OnDisconnect(s, sid, "transport close", t).grace.value;
            Disconnect.GraceExpiry(s, timer, timer.due) == Step(s, [])
  {
  }

  /** Asked during the grace period, `check-user-online` already answers
      offline: the closed socket is no longer live, so the binding is found
      stale and dropped, and without another connection under the user's name
      the reply is `online: false`. */
  lemma {:induction false} CheckDuringGraceReportsOffline(
    s: Server, u: UserName, sid: SocketId, sockets: seq<Verify.LiveSocket>, t: Millis, now: Millis)
    requires u != "" && Lookup(s, u).Some? && BoundTo(s, u) == Some(sid)
    requires !Verify.IsLive(sockets, sid) && Verify.FindByName(sockets, u).None?
    ensures Disconnect.OnDisconnect(s, sid, "transport close", t).step.server == s
    ensures var r := Verify.CheckUserOnline(s, u, sockets, now);
            |r.emits| >= 1 && r.emits[0] == ToCaller(OnlineStatus(u, false, now, None)) &&
            BoundTo(r.server, u) == None
  {
  }
}

=== FILE: stablesort.dfy ===
/** A stable sort by a natural-number key, the behaviour of
    `Array.prototype.sort` with a comparator that compares keys. */
module StableSort {

  predicate Sorted<T(!new)>(key: T -> nat, s: seq<T>) {
    forall i, j :: 0 <= i < j < |s| ==> key(s[i]) <= key(s[j])
  }

  /** A sorted list stays sorted under a head no larger than its first
      element. */
  lemma SortedCons<T(!new)>(key: T -> nat, h: T, t: seq<T>)
    requires Sorted(key, t)
    requires |t| > 0 ==> key(h) <= key(t[0])
    ensures Sorted(key, [h] + t)
  {
    var r := [h] + t;
    forall i, j | 0 <= i < j < |r| ensures key(r[i]) <= key(r[j]) {
      assert r[j] == t[j - 1];
      if i == 0 {
        assert key(t[0]) <= key(t[j - 1]);
      } else {
        assert r[i] == t[i - 1];
      }
    }
  }

  /** Inserts `x` before the first element whose key is not below its own. */
  function Insert<T(!new)>(key: T -> nat, x: T, s: seq<T>): (r: seq<T>)
    requires Sorted(key, s)
    ensures Sorted(key, r)
    ensures multiset(r) == multiset(s) + multiset{x}
    ensures |r| == |s| + 1 && (r[0] == x || (|s| > 0 && r[0] == s[0]))
  {
    if |s| == 0 then [x]
    else if key(x) <= key(s[0]) then
      SortedCons(key, x, s);
      [x] + s
    else
      var rest := Insert(key, x, s[1..]);
      assert s == [s[0]] + s[1..];
      assert |s| > 1 ==> key(s[0]) <= key(s[1]);
      SortedCons(key, s[0], rest);
      [s[0]] + rest
  }

  /** Insertion sort. */
  function SortBy<T(!new)>(key: T -> nat, s: seq<T>): (r: seq<T>)
    ensures Sorted(key, r)
    ensures multiset(r) == multiset(s)
  {
    if |s| == 0 then []
    else
      assert s == [s[0]] + s[1..];
      Insert(key, s[0], SortBy(key, s[1..]))
  }

  /** The elements with key `k`, in order. */
  function WithKey<T(!new)>(key: T -> nat, s: seq<T>, k: nat): (r: seq<T>)
    ensures forall y :: y in r <==> y in s && key(y) == k
  {
    if |s| == 0 then []
    else
      assert forall y :: y in s <==> y == s[0] || y in s[1..];
      (if key(s[0]) == k then [s[0]] else []) + WithKey(key, s[1..], k)
  }

  lemma WithKeyCons<T(!new)>(key: T -> nat, h: T, t: seq<T>, k: nat)
    ensures WithKey(key, [h] + t, k) == (if key(h) == k then [h] else []) + WithKey(key, t, k)
  {
    assert ([h] + t)[0] == h;
    assert ([h] + t)[1..] == t;
  }

  lemma {:induction false} InsertKeepsKeyOrder<T(!new)>(key: T -> nat, x: T, s: seq<T>, k: nat)
    requires Sorted(key, s)
    ensures WithKey(key, Insert(key, x, s), k) == WithKey(key, [x] + s, k)
  {
    if |s| > 0 && key(x) > key(s[0]) {
      var h, t := s[0], s[1..];
      var rest := Insert(key, x, t);
      assert s == [h] + t;
      var hk := if key(h) == k then [h] else [];
      var xk := if key(x) == k then [x] else [];
      calc {
        WithKey(key, Insert(key, x, s), k);
        WithKey(key, [h] + rest, k);
        { WithKeyCons(key, h, rest, k); }
        hk + WithKey(key, rest, k);
        { InsertKeepsKeyOrder(key, x, t, k); }
        hk + WithKey(key, [x] + t, k);
        { WithKeyCons(key, x, t, k); }
        hk + (xk + WithKey(key, t, k));
        { assert hk == [] || xk == []; }
        xk + (hk + WithKey(key, t, k));
        { WithKeyCons(key, h, t, k); }
        xk + WithKey(key, s, k);
        { WithKeyCons(key, x, s, k); }
        WithKey(key, [x] + s, k);
      }
    }
  }

  /** The sort is stable: elements with equal keys keep their relative
      order. */
  lemma {:induction false} SortIsStable<T(!new)>(key: T -> nat, s: seq<T>, k: nat)
    ensures WithKey(key, SortBy(key, s), k) == WithKey(key, s, k)
  {
    if |s| > 0 {
      var t := SortBy(key, s[1..]);
      SortIsStable(key, s[1..], k);
      InsertKeepsKeyOrder(key, s[0], t, k);
      assert s == [s[0]] + s[1..];
      WithKeyCons(key, s[0], t, k);
      WithKeyCons(key, s[0], s[1..], k);
    }
  }
}

=== FILE: text.dfy ===
/** The handful of JavaScript string operations the presence code leans on:
    `trim`, ASCII `toLowerCase`, `includes`, decimal rendering of a count and
    `Number(...)` applied to a form field. */
module Text {

  /** ECMAScript WhiteSpace and LineTerminator code points: what `trim` removes. */
  predicate IsSpace(c: char) {
    c == ' ' || c == '\t' || c == '\n' || c == '\r' || c == '\U{000B}' || c == '\U{000C}' ||
    c == '\U{00A0}' || c == '\U{FEFF}' || c == '\U{1680}' || ('\U{2000}' <= c <= '\U{200A}') ||
    c == '\U{2028}' || c == '\U{2029}' || c == '\U{202F}' || c == '\U{205F}' || c == '\U{3000}'
  }

  /** Only whitespace (or nothing): `!s.trim()`. */
  predicate IsBlank(s: string) {
    forall i :: 0 <= i < |s| ==> IsSpace(s[i])
  }

  /** `s` without its leading whitespace. */
  function TrimStart(s: string): (r: string)
    ensures |r| <= |s|
    ensures |r| > 0 ==> !IsSpace(r[0])
    ensures r == "" <==> IsBlank(s)
    ensures |s| > 0 && !IsSpace(s[0]) ==> r == s
    ensures r == s[|s| - |r|..] && IsBlank(s[..|s| - |r|])
  {
    if |s| > 0 && IsSpace(s[0]) then
      var r := TrimStart(s[1..]);
      assert s[1..][|s| - 1 - |r|..] == s[|s| - |r|..];
      assert IsBlank(s[..|s| - |r|]) by {
        forall i | 0 <= i < |s| - |r| ensures IsSpace(s[i]) {
          if i > 0 {
            assert s[i] == s[1..][..|s| - 1 - |r|][i - 1];
          }
        }
      }
      assert IsBlank(s[1..]) ==> IsBlank(s) by {
        if IsBlank(s[1..]) {
          forall i | 0 < i < |s| ensures IsSpace(s[i]) {
            assert s[i] == s[1..][i - 1];
          }
        }
      }
      r
    else s
  }

  /** `s` without its trailing whitespace. */
  function TrimEnd(s: string): (r: string)
    ensures |r| <= |s|
    ensures |r| > 0 ==> !IsSpace(r[|r| - 1])
    ensures r == "" <==> IsBlank(s)
    ensures |s| > 0 && !IsSpace(s[|s| - 1]) ==> r == s
    ensures r == s[..|r|] && IsBlank(s[|r|..])
  {
    if |s| > 0 && IsSpace(s[|s| - 1]) then
      var r := TrimEnd(s[..|s| - 1]);
      assert IsBlank(s[|r|..]) by {
        forall i | |r| <= i < |s| ensures IsSpace(s[i]) {
          if i < |s| - 1 {
            assert s[i] == s[..|s| - 1][|r|..][i - |r|];
          }
        }
      }
      assert IsBlank(s[..|s| - 1]) ==> IsBlank(s) by {
        if IsBlank(s[..|s| - 1]) {
          forall i | 0 <= i < |s| - 1 ensures IsSpace(s[i]) {
            assert s[i] == s[..|s| - 1][i];
          }
        }
      }
      r
    else s
  }

  /** `String.prototype.trim`: `s` without leading and trailing whitespace;
      nothing is left exactly when `s` is blank. */
  function Trim(s: string): (r: string)
    ensures |r| <= |s|
    ensures |r| > 0 ==> !IsSpace(r[0]) && !IsSpace(r[|r| - 1])
    ensures r == "" <==> IsBlank(s)
    ensures exists i, j :: 0 <= i <= j <= |s| && r == s[i..j] && IsBlank(s[..i]) && IsBlank(s[j..])
  {
    var a := TrimStart(s);
    var r := TrimEnd(a);
    assert |r| > 0 ==> r[0] == a[0];
    TrimIsInfix(s, a, r);
    r
  }

  lemma TrimIsInfix(s: string, a: string, r: string)
    requires |a| <= |s| && a == s[|s| - |a|..] && IsBlank(s[..|s| - |a|])
    requires |r| <= |a| && r == a[..|r|] && IsBlank(a[|r|..])
    ensures exists i, j :: 0 <= i <= j <= |s| && r == s[i..j] && IsBlank(s[..i]) && IsBlank(s[j..])
  {
    var i := |s| - |a|;
    var j := i + |r|;
    assert r == s[i..j];
    assert s[j..] == a[|r|..];
  }

  /** A string with nothing to trim is its own trim. */
  lemma {:induction false} TrimNoSpace(s: string)
    requires forall i :: 0 <= i < |s| ==> !IsSpace(s[i])
    ensures Trim(s) == s
  {
    assert TrimStart(s) == s;
    assert TrimEnd(s) == s;
  }

  /** ASCII case folding, the part of `toLowerCase` the model covers. */
  function LowerChar(c: char): (r: char)
    ensures 'A' <= c <= 'Z' ==> 'a' <= r <= 'z' && r as int == c as int + 32
    ensures !('A' <= c <= 'Z') ==> r == c
  {
    if 'A' <= c <= 'Z' then (c as int + 32) as char else c
  }

  function Lower(s: string): (r: string)
    ensures |r| == |s|
    ensures forall i :: 0 <= i < |s| ==> r[i] == LowerChar(s[i])
  {
    seq(|s|, i requires 0 <= i < |s| => LowerChar(s[i]))
  }

  /** `a.toLowerCase() === b.toLowerCase()`. */
  predicate SameIgnoringCase(a: string, b: string) {
    Lower(a) == Lower(b)
  }

  /** `hay.includes(needle)`. */
  predicate Contains(hay: string, needle: string) {
    exists i :: 0 <= i <= |hay| - |needle| && IsPrefix(needle, hay[i..])
  }

  predicate IsPrefix(p: string, s: string) {
    |p| <= |s| && s[..|p|] == p
  }

  predicate IsDigit(c: char) {
    '0' <= c <= '9'
  }

  predicate AllDigits(s: string) {
    forall i :: 0 <= i < |s| ==> IsDigit(s[i])
  }

  function DigitChar(d: nat): (c: char)
    requires d < 10
    ensures IsDigit(c) && c as int - '0' as int == d
  {
    ('0' as int + d) as char
  }

  /** The decimal rendering of `n` (template-literal interpolation of a count). */
  function NatToString(n: nat): (s: string)
    ensures |s| > 0 && AllDigits(s)
  {
    if n < 10 then [DigitChar(n)] else NatToString(n / 10) + [DigitChar(n % 10)]
  }

  /** The value of a string of decimal digits. */
  function DigitsValue(s: string): nat
    requires AllDigits(s)
  {
    if |s| == 0 then 0
    else DigitsValue(s[..|s| - 1]) * 10 + (s[|s| - 1] as int - '0' as int)
  }

  /** Reading back a rendered number gives the number. */
  lemma {:induction false} DigitsRoundTrip(n: nat)
    ensures DigitsValue(NatToString(n)) == n
  {
    if n >= 10 {
      var s := NatToString(n);
      assert s[..|s| - 1] == NatToString(n / 10);
      DigitsRoundTrip(n / 10);
    }
  }

  /** What `Number(s)` yields for a form field: a finite number or `NaN`. */
  datatype NumberValue = Finite(n: int) | NaN {
    /** JavaScript truthiness of a number: neither `0` nor `NaN`. */
    predicate Truthy() {
      Finite? && n != 0
    }
  }

  /** `Number(s)` for the strings a form can hold: blank reads as 0, a run of
      decimal digits (after trimming) as its value, anything else as NaN. */
  function ToNumber(s: string): (r: NumberValue)
    ensures IsBlank(s) ==> r == Finite(0)
    ensures r.Finite? ==> r.n >= 0
    ensures AllDigits(s) && |s| > 0 ==> r == Finite(DigitsValue(s))
  {
    var t := Trim(s);
    if t == "" then Finite(0)
    else if AllDigits(t) then Finite(DigitsValue(t))
    else NaN
  }
}

=== FILE: throttle.dfy ===
/** The coalescing `userUpdate` dispatcher (`createThrottledBroadcast`): a set
    of users awaiting a roster refresh and at most one outstanding 500 ms timer.
    Scheduling only records the name (and arms the timer if none is armed); the
    timer's expiry is a separate event, `Fire`. */
module Throttle {

  datatype Throttle = Throttle(pending: set<string>, armed: bool)

  const Idle := Throttle({}, false)

  /** The coalescing window, in milliseconds. */
  const WindowMs := 500

  /** Names are only ever pending while a timer is armed to flush them. */
  predicate Valid(t: Throttle) {
    !t.armed ==> t.pending == {}
  }

  /** Whether scheduling now starts a new timer: only when none is armed. */
  predicate StartsTimer(t: Throttle) {
    !t.armed
  }

  /** `scheduleUserUpdate(name)`. */
  function Schedule(t: Throttle, name: string): (r: Throttle)
    ensures Valid(r) && r.armed
    ensures name in r.pending && t.pending <= r.pending
    ensures r.pending - t.pending <= {name}
  {
    Throttle(t.pending + {name}, true)
  }

  /** The outcome of a timer expiry: the new dispatcher state and whether one
      `userUpdate` was broadcast. */
  datatype Fired = Fired(next: Throttle, emitted: bool)

  /** The armed timer expires: broadcast once if anything is pending, then
      clear the pending set and the timer handle. */
  function Fire(t: Throttle): (r: Fired)
    requires t.armed
    ensures r.next == Idle
    ensures r.emitted <==> t.pending != {}
  {
    Fired(Idle, |t.pending| > 0)
  }

  /** The names of a burst, as a set. */
  function Names(names: seq<string>): (r: set<string>)
    ensures forall n :: n in r <==> n in names
  {
    if |names| == 0 then {} else {names[0]} + Names(names[1..])
  }

  /** Schedules every name in turn; also counts the timers started. */
  function ScheduleAll(t: Throttle, names: seq<string>): (r: (Throttle, nat))
    decreases |names|
  {
    if |names| == 0 then (t, 0)
    else
      var rest := ScheduleAll(Schedule(t, names[0]), names[1..]);
      (rest.0, rest.1 + if StartsTimer(t) then 1 else 0)
  }

  /** Any burst of scheduling starts at most one timer (none if one was
      already armed), and its expiry broadcasts exactly one `userUpdate`
      covering every scheduled name, leaving the dispatcher idle. */
  lemma {:induction false} BurstCoalesces(t: Throttle, names: seq<string>)
    requires Valid(t)
    requires |names| > 0
    ensures ScheduleAll(t, names).1 == (if t.armed then 0 else 1)
    ensures ScheduleAll(t, names).0.armed
    ensures ScheduleAll(t, names).0.pending == t.pending + Names(names)
    ensures Fire(ScheduleAll(t, names).0) == Fired(Idle, true)
    decreases |names|
  {
    var t1 := Schedule(t, names[0]);
    if |names| > 1 {
      BurstCoalesces(t1, names[1..]);
    }
  }
}

=== FILE: userfilter.dfy ===
/** `getFilteredUsers` (app/chat/page.js): the gender and region filters of
    the user list and, with no region filter, the neighbours-first order. */
module UserFilter {
  import opened Base
  import opened Text
  import opened Roster
  import StableSort

  /** The signed-in user's own location, as `userData` holds it. */
  datatype Me = Me(country: string, region: string)

  /** `user.field && user.field.toLowerCase() === wanted.toLowerCase()`. */
  predicate Matches(field: string, wanted: string) {
    field != "" && SameIgnoringCase(field, wanted)
  }

  /** Keeps the peers that satisfy `p`, in order. */
  function Where(users: seq<Peer>, p: Peer -> bool): (r: seq<Peer>)
    ensures forall u :: u in r <==> u in users && p(u)
    ensures |r| <= |users|
  {
    if |users| == 0 then []
    else
      assert forall u :: u in users <==> u == users[0] || u in users[1..];
      (if p(users[0]) then [users[0]] else []) + Where(users[1..], p)
  }

  /** `filter` keeps the list's order: one more peer lands at the end
      exactly when it passes. */
  lemma {:induction false} WhereSnoc(users: seq<Peer>, p: Peer -> bool, u: Peer)
    ensures Where([], p) == []
    ensures Where(users + [u], p) == Where(users, p) + (if p(u) then [u] else [])
  {
    if |users| > 0 {
      var h := if p(users[0]) then [users[0]] else [];
      assert (users + [u])[0] == users[0];
      assert (users + [u])[1..] == users[1..] + [u];
      WhereSnoc(users[1..], p, u);
      assert h + (Where(users[1..], p) + (if p(u) then [u] else [])) ==
             (h + Where(users[1..], p)) + (if p(u) then [u] else []);
    }
  }

  /** Filters that agree on every peer keep the same peers. */
  lemma {:induction false} WhereSamePredicate(users: seq<Peer>, p: Peer -> bool, q: Peer -> bool)
    requires forall u :: p(u) == q(u)
    ensures Where(users, p) == Where(users, q)
  {
    if |users| > 0 {
      WhereSamePredicate(users[1..], p, q);
    }
  }

  /** Whether the list is sorted at all: a region filter of `all` and an
      own region that is neither empty nor `Unknown`. */
  predicate Sorts(me: Me, regionFilter: string) {
    regionFilter == "all" && me.region != "" && me.region != "Unknown"
  }

  /** The comparator's verdict as a rank: same region first, then same
      country (only when the own country is known), then online. Lower
      ranks sort first. */
  function Rank(me: Me, u: Peer): (r: nat)
    ensures r < 8
  {
    var sameRegion := Matches(u.region, me.region);
    var countryKnown := me.country != "" && me.country != "Unknown";
    var sameCountry := countryKnown && Matches(u.country, me.country);
    (if sameRegion then 0 else 4) + (if sameCountry then 0 else 2) + (if u.online then 0 else 1)
  }

  /** The comparator: negative when `a` goes first, positive when `b` does. */
  function Compare(me: Me, a: Peer, b: Peer): int {
    var aRegion := Matches(a.region, me.region);
    var bRegion := Matches(b.region, me.region);
    if aRegion && !bRegion then -1
    else if !aRegion && bRegion then 1
    else
      var known := me.country != "" && me.country != "Unknown";
      var aCountry := known && Matches(a.country, me.country);
      var bCountry := known && Matches(b.country, me.country);
      if aCountry && !bCountry then -1
      else if !aCountry && bCountry then 1
      else if a.online && !b.online then -1
      else if !a.online && b.online then 1
      else 0
  }

  /** The comparator orders peers exactly as their ranks do. */
  lemma CompareIsRankOrder(me: Me, a: Peer, b: Peer)
    ensures Compare(me, a, b) < 0 <==> Rank(me, a) < Rank(me, b)
    ensures Compare(me, a, b) == 0 <==> Rank(me, a) == Rank(me, b)
  {
  }

  /** `getFilteredUsers()`: the gender filter, then the region filter (each
      skipped for `all`), then the neighbours-first sort. */
  function FilteredUsers(me: Me, users: seq<Peer>, genderFilter: string, regionFilter: string): (r: seq<Peer>)
    ensures forall u :: u in r <==>
              u in users &&
              (genderFilter == "all" || Matches(u.gender, genderFilter)) &&
              (regionFilter == "all" || Matches(u.region, regionFilter))
    ensures Sorts(me, regionFilter) ==> StableSort.Sorted((u: Peer) => Rank(me, u), r)
    ensures Sorts(me, regionFilter) ==>
              multiset(r) == multiset(if genderFilter == "all" then users else Where(users, (u: Peer) => Matches(u.gender, genderFilter)))
    ensures !Sorts(me, regionFilter) ==> |r| <= |users|
  {
    var g := if genderFilter == "all" then users else Where(users, (u: Peer) => Matches(u.gender, genderFilter));
    var f := if regionFilter == "all" then g else Where(g, (u: Peer) => Matches(u.region, regionFilter));
    if Sorts(me, regionFilter) then
      var r := StableSort.SortBy((u: Peer) => Rank(me, u), f);
      assert forall u :: u in r <==> u in f by {
        forall u ensures u in r <==> u in f {
          assert u in r <==> u in multiset(r);
        }
      }
      r
    else f
  }

  /** In the sorted list, nobody from another region comes before someone
      from the own region, and within the own region nobody from another
      country comes before someone from the own (known) country. */
  lemma NeighboursFirst(me: Me, users: seq<Peer>, genderFilter: string, i: nat, j: nat)
    requires Sorts(me, "all")
    requires i < j < |FilteredUsers(me, users, genderFilter, "all")|
    ensures var r := FilteredUsers(me, users, genderFilter, "all");
            Matches(r[j].region, me.region) ==> Matches(r[i].region, me.region)
    ensures var r := FilteredUsers(me, users, genderFilter, "all");
            (me.country != "" && me.country != "Unknown" &&
             Matches(r[i].region, me.region) == Matches(r[j].region, me.region) &&
             Matches(r[j].country, me.country)) ==>
              Matches(r[i].country, me.country)
  {
  }

  /** Peers the comparator calls equal keep the order they had. */
  lemma FilteredUsersKeepsTies(me: Me, users: seq<Peer>, genderFilter: string, k: nat)
    requires Sorts(me, "all")
    ensures var g := if genderFilter == "all" then users else Where(users, (u: Peer) => Matches(u.gender, genderFilter));
            StableSort.WithKey((u: Peer) => Rank(me, u), FilteredUsers(me, users, genderFilter, "all"), k) ==
            StableSort.WithKey((u: Peer) => Rank(me, u), g, k)
  {
    var g := if genderFilter == "all" then users else Where(users, (u: Peer) => Matches(u.gender, genderFilter));
    StableSort.SortIsStable((u: Peer) => Rank(me, u), g, k);
  }

  /** The gender filter ignores case: two filter values that differ only in
      the case of their letters select the same users in the same order. */
  lemma GenderFilterIgnoresCase(me: Me, users: seq<Peer>, g1: string, g2: string, regionFilter: string)
    requires g1 != "all" && g2 != "all" && Lower(g1) == Lower(g2)
    ensures FilteredUsers(me, users, g1, regionFilter) == FilteredUsers(me, users, g2, regionFilter)
  {
    WhereSamePredicate(users, (u: Peer) => Matches(u.gender, g1), (u: Peer) => Matches(u.gender, g2));
  }

  /** Without the neighbours-first sort, the filtered list keeps the input's
      order: one more user lands at the end exactly when both filters pass. */
  lemma FilteredUsersSnoc(me: Me, users: seq<Peer>, u: Peer, genderFilter: string, regionFilter: string)
    requires !Sorts(me, regionFilter)
    ensures FilteredUsers(me, [], genderFilter, regionFilter) == []
    ensures FilteredUsers(me, users + [u], genderFilter, regionFilter) ==
              FilteredUsers(me, users, genderFilter, regionFilter) +
              (if (genderFilter == "all" || Matches(u.gender, genderFilter)) &&
                  (regionFilter == "all" || Matches(u.region, regionFilter)) then [u] else [])
  {
    var pg := (v: Peer) => Matches(v.gender, genderFilter);
    var pr := (v: Peer) => Matches(v.region, regionFilter);
    WhereSnoc(users, pg, u);
    var g := if genderFilter == "all" then users else Where(users, pg);
    var gu := if genderFilter == "all" then users + [u] else Where(users + [u], pg);
    if genderFilter == "all" || pg(u) {
      assert gu == g + [u];
      WhereSnoc(g, pr, u);
    } else {
      assert gu == g;
    }
  }
}

=== FILE: verify.dfy ===
/** Resolving claimed against actual presence (server.js):
    `check-user-online`, `verify-online-users`, `refresh-user-status` and the
    one-minute sweep of stale online users. The transport's live connections
    (`io.fetchSockets()`) are an input. */
module Verify {
  import opened Base
  import opened Assoc
  import opened Presence

  /** A live connection: its id and the `userName` of its handshake query
      (`""` when absent). */
  datatype LiveSocket = LiveSocket(id: SocketId, queryName: string)

  /** Beyond this age a `lastSeen` no longer vouches for an unbound user. */
  const StaleMs := 2 * 60 * 1000

  /** `allSockets.some(s => s.id === sid)`. */
  predicate IsLive(sockets: seq<LiveSocket>, sid: SocketId) {
    exists i :: 0 <= i < |sockets| && sockets[i].id == sid
  }

  /** `allSockets.find(s => s.handshake.query.userName === name)`. */
  function FindByName(sockets: seq<LiveSocket>, name: UserName): (r: Option<LiveSocket>)
    ensures r.Some? ==> r.value in sockets && r.value.queryName == name
    ensures r.None? ==> forall i :: 0 <= i < |sockets| ==> sockets[i].queryName != name
    ensures r.Some? ==> exists i :: 0 <= i < |sockets| && sockets[i] == r.value &&
                          forall k :: 0 <= k < i ==> sockets[k].queryName != name
  {
    if |sockets| == 0 then None
    else if sockets[0].queryName == name then
      assert sockets[0] == sockets[0];
      Some(sockets[0])
    else
      var r := FindByName(sockets[1..], name);
      FindByNameShift(sockets, name, r);
      r
  }

  lemma FindByNameShift(sockets: seq<LiveSocket>, name: UserName, r: Option<LiveSocket>)
    requires |sockets| > 0 && sockets[0].queryName != name
    requires r.Some? ==> exists i :: 0 <= i < |sockets[1..]| && sockets[1..][i] == r.value &&
                           forall k :: 0 <= k < i ==> sockets[1..][k].queryName != name
    ensures r.Some? ==> exists i :: 0 <= i < |sockets| && sockets[i] == r.value &&
                          forall k :: 0 <= k < i ==> sockets[k].queryName != name
  {
    if r.Some? {
      var i :| 0 <= i < |sockets[1..]| && sockets[1..][i] == r.value &&
               forall k :: 0 <= k < i ==> sockets[1..][k].queryName != name;
      assert sockets[i + 1] == r.value;
      forall k | 0 <= k < i + 1 ensures sockets[k].queryName != name {
        if k > 0 { assert sockets[k] == sockets[1..][k - 1]; }
      }
    }
  }

  /** `{ online: true, lastSeen: now }`. */
  function Revive(now: Millis): Patch {
    Patch(Some(true), Some(now), None, None, None)
  }

  /** `check-user-online`, steps (b) and (c): with no bound socket left, look
      for a live socket whose handshake names the user and rebind to it, or
      else report offline, broadcasting `user-offline` only if the record the
      handler holds still says online. */
  function Probe(s: Server, rec: Record, name: UserName, sockets: seq<LiveSocket>, now: Millis): (r: Step)
    requires Lookup(s, name).Some?
  {
    match FindByName(sockets, name)
    case Some(sock) =>
      Step(UpdateUser(Bind(s, name, sock.id), name, GoOnline(now, sock.id)),
           [ToCaller(OnlineStatus(name, true, now, None)), ToAll(UserOnline(name, None))])
    case None =>
      var reply := ToCaller(OnlineStatus(name, false, rec.lastSeen.GetOr(now), None));
      if rec.online then Step(UpdateUser(s, name, GoOffline(now)), [reply, ToAll(UserOffline(name, Some(now)))])
      else Step(s, [reply])
  }

  /** `check-user-online`: verifies one user. A missing name or an unknown
      user is answered offline with an error and nothing changes. A bound
      socket that is live confirms the user online, writing and broadcasting
      only when the record said offline. A bound socket that is gone is
      unbound and the record set offline without a broadcast, and the check
      falls through to `Probe`. */
  function CheckUserOnline(s: Server, name: UserName, sockets: seq<LiveSocket>, now: Millis): (r: Step)
    ensures name == "" ==> r == Step(s, [ToCaller(OnlineStatus("unknown", false, now, Some("Invalid username")))])
    ensures name != "" && Lookup(s, name).None? ==>
              r == Step(s, [ToCaller(OnlineStatus(name, false, now, Some("User not found")))])
    ensures name != "" && Lookup(s, name).Some? && BoundTo(s, name).Some? && IsLive(sockets, BoundTo(s, name).value) ==>
              && |r.emits| >= 1
              && r.emits[0] == ToCaller(OnlineStatus(name, true, Lookup(s, name).value.lastSeen.GetOr(now), None))
              && (Lookup(s, name).value.online ==> r == Step(s, r.emits) && |r.emits| == 1)
              && (!Lookup(s, name).value.online ==> r.emits == [r.emits[0], ToAll(UserOnline(name, None))])
              && (!Lookup(s, name).value.online ==> r.server == UpdateUser(s, name, Revive(now)))
              && (!Lookup(s, name).value.online ==> Lookup(r.server, name) == Some(Apply(Lookup(s, name).value, Revive(now))))
              && BoundTo(r.server, name) == BoundTo(s, name)
              && Lookup(r.server, name).Some? && Lookup(r.server, name).value.online
    ensures name != "" && Lookup(s, name).Some? &&
            (BoundTo(s, name).None? || !IsLive(sockets, BoundTo(s, name).value)) &&
            FindByName(sockets, name).Some? ==>
              var sock := FindByName(sockets, name).value;
              && BoundTo(r.server, name) == Some(sock.id)
              && Lookup(r.server, name) == Some(Apply(Lookup(s, name).value, GoOnline(now, sock.id)))
              && r.emits == [ToCaller(OnlineStatus(name, true, now, None)), ToAll(UserOnline(name, None))]
    ensures name != "" && Lookup(s, name).Some? && BoundTo(s, name).None? && FindByName(sockets, name).None? ==>
              var rec := Lookup(s, name).value;
              && r.server == (if rec.online then UpdateUser(s, name, GoOffline(now)) else s)
              && r.emits == [ToCaller(OnlineStatus(name, false, rec.lastSeen.GetOr(now), None))] +
                            (if rec.online then [ToAll(UserOffline(name, Some(now)))] else [])
    ensures name != "" && Lookup(s, name).Some? &&
            BoundTo(s, name).Some? && !IsLive(sockets, BoundTo(s, name).value) && FindByName(sockets, name).None? ==>
              && BoundTo(r.server, name) == None
              && Lookup(r.server, name) == Some(Apply(Lookup(s, name).value, GoOffline(now)))
              && r.emits == [ToCaller(OnlineStatus(name, false, now, None))]
    ensures forall n :: n != name ==> Lookup(r.server, n) == Lookup(s, n) && BoundTo(r.server, n) == BoundTo(s, n)
    ensures r.server == s.(active := r.server.active, store := r.server.store)
    ensures Valid(s) ==> Valid(r.server)
  {
    if name == "" then Step(s, [ToCaller(OnlineStatus("unknown", false, now, Some("Invalid username")))])
    else match Lookup(s, name)
      case None => Step(s, [ToCaller(OnlineStatus(name, false, now, Some("User not found")))])
      case Some(rec) =>
        match BoundTo(s, name)
        case Some(sid) =>
          if IsLive(sockets, sid) then
            var reply := ToCaller(OnlineStatus(name, true, rec.lastSeen.GetOr(now), None));
            if !rec.online then Step(UpdateUser(s, name, Revive(now)), [reply, ToAll(UserOnline(name, None))])
            else Step(s, [reply])
          else
            Probe(UpdateUser(Unbind(s, name), name, GoOffline(now)), Apply(rec, GoOffline(now)), name, sockets, now)
        case None => Probe(s, rec, name, sockets, now)
  }

  /** The stale-binding path never broadcasts `user-offline`: the record it
      consults was set offline a moment before, so the final check finds
      nothing to announce. */
  lemma StaleBindingIsSilent(s: Server, name: UserName, sockets: seq<LiveSocket>, now: Millis)
    requires name != "" && Lookup(s, name).Some?
    requires BoundTo(s, name).Some? && !IsLive(sockets, BoundTo(s, name).value)
    requires FindByName(sockets, name).None?
    ensures OfflineBroadcasts(CheckUserOnline(s, name, sockets, now).emits) == []
    ensures Lookup(CheckUserOnline(s, name, sockets, now).server, name).value.online == false
    ensures BoundTo(CheckUserOnline(s, name, sockets, now).server, name) == None
  {
  }

  /** Verification is idempotent: checking the same user again, against the
      same live sockets, changes nothing and broadcasts nothing. */
  lemma {:induction false} CheckTwiceIsQuiet(s: Server, name: UserName, sockets: seq<LiveSocket>, t1: Millis, t2: Millis)
    requires Valid(s)
    ensures var s1 := CheckUserOnline(s, name, sockets, t1).server;
            var r2 := CheckUserOnline(s1, name, sockets, t2);
            r2.server == s1 && !AnyBroadcast(r2.emits)
  {
    var s1 := CheckUserOnline(s, name, sockets, t1).server;
    if name != "" && Lookup(s, name).Some? {
      var rec := Lookup(s, name).value;
      if BoundTo(s, name).Some? && IsLive(sockets, BoundTo(s, name).value) {
        assert BoundTo(s1, name) == BoundTo(s, name);
        assert Lookup(s1, name).value.online;
      } else {
        match FindByName(sockets, name)
        case Some(sock) =>
          assert BoundTo(s1, name) == Some(sock.id);
          assert IsLive(sockets, sock.id) by {
            var i :| 0 <= i < |sockets| && sockets[i] == sock;
          }
          assert Lookup(s1, name).value.online;
        case None =>
          assert BoundTo(s1, name) == None;
          assert !Lookup(s1, name).value.online;
      }
    }
  }

  /** A stored `lastSeen` that is missing or more than two minutes old. */
  predicate Stale(rec: Record, now: Millis) {
    rec.lastSeen.None? || now - rec.lastSeen.value > StaleMs
  }

  /** `{ online: false, lastSeen: lastSeen || now }`: offline, keeping the
      last sighting when there is one. */
  function ForceOffline(rec: Record, now: Millis): (r: Record)
    ensures !r.online
    ensures r.lastSeen == Some(rec.lastSeen.GetOr(now))
    ensures r.chatWindow == rec.chatWindow && r.socketId == rec.socketId
  {
    Apply(rec, GoOffline(rec.lastSeen.GetOr(now)))
  }

  /** `verify-online-users` for one name: an unbound, stored user with a
      stale `lastSeen` is forced offline — whatever the record's current
      `online` flag — and reported to the requester and then to everyone. */
  function VerifyOne(s: Server, u: UserName, now: Millis): (r: Step)
    ensures Lookup(s, u).Some? && BoundTo(s, u).None? && Stale(Lookup(s, u).value, now) ==>
              var rec := Lookup(s, u).value;
              var ev := UserOffline(u, Some(rec.lastSeen.GetOr(now)));
              r == Step(UpdateUser(s, u, GoOffline(rec.lastSeen.GetOr(now))), [ToCaller(ev), ToAll(ev)])
    ensures !(Lookup(s, u).Some? && BoundTo(s, u).None? && Stale(Lookup(s, u).value, now)) ==> r == Step(s, [])
    ensures r.server == s.(store := r.server.store)
  {
    match Lookup(s, u)
    case Some(rec) =>
      if BoundTo(s, u).None? && Stale(rec, now) then
        var ev := UserOffline(u, Some(rec.lastSeen.GetOr(now)));
        Step(UpdateUser(s, u, GoOffline(rec.lastSeen.GetOr(now))), [ToCaller(ev), ToAll(ev)])
      else Step(s, [])
    case None => Step(s, [])
  }

  /** `verify-online-users`, name by name in request order. */
  function VerifyEach(s: Server, users: seq<UserName>, now: Millis): (r: Step)
    ensures r.server.active == s.active && r.server.sessions == s.sessions && r.server.updates == s.updates
    ensures r.server == s.(store := r.server.store)
    ensures forall u :: u !in users || BoundTo(s, u).Some? ==> Lookup(r.server, u) == Lookup(s, u)
    ensures forall u :: !(u in users && BoundTo(s, u).None? && Lookup(s, u).Some? && Stale(Lookup(s, u).value, now)) ==>
              Lookup(r.server, u) == Lookup(s, u)
    ensures forall u :: u in users && BoundTo(s, u).None? && Lookup(s, u).Some? && Stale(Lookup(s, u).value, now) ==>
              Lookup(r.server, u) == Some(ForceOffline(Lookup(s, u).value, now)) &&
              u in OfflineBroadcasts(r.emits)
    ensures forall u :: u in OfflineBroadcasts(r.emits) ==>
              u in users && BoundTo(s, u).None? && Lookup(s, u).Some? && Stale(Lookup(s, u).value, now)
    ensures forall u :: Lookup(s, u).Some? && !Stale(Lookup(s, u).value, now) ==> Lookup(r.server, u) == Lookup(s, u)
    ensures Valid(s) ==> Valid(r.server)
    decreases |users|
  {
    if |users| == 0 then Step(s, [])
    else
      var first := VerifyOne(s, users[0], now);
      var rest := VerifyEach(first.server, users[1..], now);
      OfflineBroadcastsAppend(first.emits, rest.emits);
      Step(rest.server, first.emits + rest.emits)
  }

  /** The batch replies in request order: one more name appends exactly that
      name's replies — to the requester and to everyone when it is forced
      offline, nothing otherwise — judged on the state the earlier names
      left, which for a name not asked about before is the original one. */
  lemma VerifyEachSnoc(s: Server, users: seq<UserName>, u: UserName, now: Millis)
    ensures var a := VerifyEach(s, users, now);
            var b := VerifyOne(a.server, u, now);
            && VerifyEach(s, users + [u], now) == Step(b.server, a.emits + b.emits)
            && (u !in users ==> b.emits == VerifyOne(s, u, now).emits)
  {
    VerifyEachThenOne(s, users, u, now);
  }

  lemma {:induction false} VerifyEachThenOne(s: Server, users: seq<UserName>, u: UserName, now: Millis)
    ensures var a := VerifyEach(s, users, now);
            var b := VerifyOne(a.server, u, now);
            VerifyEach(s, users + [u], now) == Step(b.server, a.emits + b.emits)
    decreases |users|
  {
    if |users| == 0 {
      assert users + [u] == [u];
    } else {
      assert (users + [u])[0] == users[0];
      assert (users + [u])[1..] == users[1..] + [u];
      var first := VerifyOne(s, users[0], now);
      VerifyEachThenOne(first.server, users[1..], u, now);
      var a' := VerifyEach(first.server, users[1..], now);
      var b := VerifyOne(a'.server, u, now);
      assert first.emits + (a'.emits + b.emits) == (first.emits + a'.emits) + b.emits;
    }
  }

  /** `verify-online-users { users, requester }`: ignored without a requester,
      otherwise every listed name is verified in turn. */
  function VerifyOnlineUsers(s: Server, users: seq<UserName>, requester: UserName, now: Millis): (r: Step)
    ensures requester == "" ==> r == Step(s, [])
    ensures requester != "" ==> r == VerifyEach(s, users, now)
    ensures r.server.active == s.active
    ensures r.server == s.(store := r.server.store)
    ensures forall u :: BoundTo(s, u).Some? ==> Lookup(r.server, u) == Lookup(s, u)
  {
    if requester == "" then Step(s, []) else VerifyEach(s, users, now)
  }

  /** The batch check does not look at the record's `online` flag: a user
      already stored offline is announced offline again. */
  lemma VerifyReannouncesOfflineUsers(s: Server, u: UserName, requester: UserName, now: Millis)
    requires requester != ""
    requires BoundTo(s, u).None? && Lookup(s, u).Some? && !Lookup(s, u).value.online
    requires Stale(Lookup(s, u).value, now)
    ensures u in OfflineBroadcasts(VerifyOnlineUsers(s, [u], requester, now).emits)
  {
  }

  /** The periodic sweep's verdict on one stored user: online, stale and
      unbound means forced offline. */
  predicate SweepTarget(s: Server, u: UserName, rec: Record, now: Millis) {
    rec.online && Stale(rec, now) && BoundTo(s, u).None?
  }

  /** The offline broadcasts the sweep makes, in store order. */
  function SweepEmits(s: Server, entries: seq<(UserName, Record)>, now: Millis): (r: seq<Emit>)
    ensures forall u :: u in OfflineBroadcasts(r) <==>
              exists i :: 0 <= i < |entries| && entries[i].0 == u && SweepTarget(s, u, entries[i].1, now)
  {
    if |entries| == 0 then []
    else
      var (u, rec) := entries[0];
      var here := if SweepTarget(s, u, rec, now) then [ToAll(UserOffline(u, Some(rec.lastSeen.GetOr(now))))] else [];
      var rest := SweepEmits(s, entries[1..], now);
      OfflineBroadcastsAppend(here, rest);
      assert forall i :: 0 < i < |entries| ==> entries[i] == entries[1..][i - 1];
      here + rest
  }

  /** Store order, once per entry: an entry appended to the store adds its
      own broadcast at the end exactly when the sweep targets it. */
  lemma {:induction false} SweepEmitsSnoc(s: Server, entries: seq<(UserName, Record)>, e: (UserName, Record), now: Millis)
    ensures SweepEmits(s, [], now) == []
    ensures SweepEmits(s, entries + [e], now) == SweepEmits(s, entries, now) +
              (if SweepTarget(s, e.0, e.1, now) then [ToAll(UserOffline(e.0, Some(e.1.lastSeen.GetOr(now))))] else [])
  {
    if |entries| > 0 {
      var (u, rec) := entries[0];
      var h := if SweepTarget(s, u, rec, now) then [ToAll(UserOffline(u, Some(rec.lastSeen.GetOr(now))))] else [];
      var t := if SweepTarget(s, e.0, e.1, now) then [ToAll(UserOffline(e.0, Some(e.1.lastSeen.GetOr(now))))] else [];
      assert (entries + [e])[0] == entries[0];
      assert (entries + [e])[1..] == entries[1..] + [e];
      SweepEmitsSnoc(s, entries[1..], e, now);
      assert h + (SweepEmits(s, entries[1..], now) + t) == (h + SweepEmits(s, entries[1..], now)) + t;
    }
  }

  /** The one-minute sweep: every stored user marked online whose `lastSeen`
      is stale and who is not bound is set offline (keeping `lastSeen`, or
      `now` if there was none) and announced. */
  function StaleSweep(s: Server, now: Millis): (r: Step)
    ensures r.server.active == s.active && r.server.sessions == s.sessions && r.server.updates == s.updates
    ensures r.server == s.(store := r.server.store)
    ensures forall u :: Lookup(r.server, u) ==
              (if Lookup(s, u).Some? && SweepTarget(s, u, Lookup(s, u).value, now)
               then Some(ForceOffline(Lookup(s, u).value, now)) else Lookup(s, u))
    ensures Valid(s) ==> Valid(r.server)
  {
    var swept := MapValues(s.store, (u, rec) => if SweepTarget(s, u, rec, now) then ForceOffline(rec, now) else rec);
    Step(s.(store := swept), SweepEmits(s, s.store, now))
  }

  /** The sweep announces exactly the users it forces offline; bound users
      are never touched. */
  lemma SweepAnnouncesExactlyItsTargets(s: Server, u: UserName, now: Millis)
    requires Valid(s)
    ensures u in OfflineBroadcasts(StaleSweep(s, now).emits) <==>
              Lookup(s, u).Some? && SweepTarget(s, u, Lookup(s, u).value, now)
    ensures BoundTo(s, u).Some? ==> Lookup(StaleSweep(s, now).server, u) == Lookup(s, u)
  {
    if u in OfflineBroadcasts(StaleSweep(s, now).emits) {
      var i :| 0 <= i < |s.store| && s.store[i].0 == u && SweepTarget(s, u, s.store[i].1, now);
      GetAt(s.store, i);
    }
    if Lookup(s, u).Some? && SweepTarget(s, u, Lookup(s, u).value, now) {
      GetIndex(s.store, u);
    }
  }

  /** `refresh-user-status { userName, requester }`. A bound, stored user is
      set online now on the bound socket and announced. An unbound, stored
      user seen in the last two minutes whose stored socket is still live is
      rebound to it, set online and announced; otherwise `user-offline` is
      broadcast with the stored `lastSeen`, changing nothing. */
  function RefreshUserStatus(s: Server, name: UserName, requester: UserName, sockets: seq<LiveSocket>, now: Millis): (r: Step)
    ensures name == "" || requester == "" || Lookup(s, name).None? ==> r == Step(s, [])
    ensures name != "" && requester != "" && Lookup(s, name).Some? && BoundTo(s, name).Some? ==>
              && Lookup(r.server, name) == Some(Apply(Lookup(s, name).value, GoOnline(now, BoundTo(s, name).value)))
              && r.server.active == s.active
              && r.emits == [ToAll(UserOnline(name, None))]
    ensures name != "" && requester != "" && Lookup(s, name).Some? && BoundTo(s, name).None? ==>
              var rec := Lookup(s, name).value;
              var recent := rec.lastSeen.Some? && now - rec.lastSeen.value < StaleMs;
              && (recent && IsLive(sockets, rec.socketId) ==>
                    BoundTo(r.server, name) == Some(rec.socketId) &&
                    Lookup(r.server, name) == Some(rec.(online := true)) &&
                    r.emits == [ToAll(UserOnline(name, None))])
              && (!(recent && IsLive(sockets, rec.socketId)) ==>
                    r == Step(s, [ToAll(UserOffline(name, rec.lastSeen))]))
    ensures forall n :: n != name ==> Lookup(r.server, n) == Lookup(s, n) && BoundTo(r.server, n) == BoundTo(s, n)
    ensures r.server == s.(active := r.server.active, store := r.server.store)
    ensures Valid(s) ==> Valid(r.server)
  {
    if name == "" || requester == "" then Step(s, [])
    else match Lookup(s, name)
      case None => Step(s, [])
      case Some(rec) =>
        match BoundTo(s, name)
        case Some(sid) => Step(UpdateUser(s, name, GoOnline(now, sid)), [ToAll(UserOnline(name, None))])
        case None =>
          if rec.lastSeen.Some? && now - rec.lastSeen.value < StaleMs && IsLive(sockets, rec.socketId) then
            Step(UpdateUser(Bind(s, name, rec.socketId), name, Patch(Some(true), None, None, None, None)),
                 [ToAll(UserOnline(name, None))])
          else Step(s, [ToAll(UserOffline(name, rec.lastSeen))])
  }

  /** After a refresh, `user-online` has been announced exactly when the
      stored user ends up bound to a socket. */
  lemma RefreshAnnouncesOnlineIffBound(s: Server, name: UserName, requester: UserName, sockets: seq<LiveSocket>, now: Millis)
    requires name != "" && requester != "" && Lookup(s, name).Some?
    ensures var r := RefreshUserStatus(s, name, requester, sockets, now);
            ToAll(UserOnline(name, None)) in r.emits <==> BoundTo(r.server, name).Some?
  {
  }
}
